=== FILE: README.md ===
# Block-shooter puzzle: grid, shooters and level progress in Dafny

This project models the core rules of a Unity puzzle game. A three-dimensional
grid of coloured blocks is filled from a level layout. Shooters count the
blocks of their own colour as ammunition, then fire along the grid's bottom
row. Every block destroyed advances the level's progress counter. The grid
manager removes a block by reference and lets the blocks above it fall.

The model is built from pure functions over immutable datatypes. Two
operations are also written as loops, as the source runs them: the `targetY`
lane compaction and the legacy shift-by-one column drop. Both are proved
equal to their functional definitions. The shooter's pass over the bottom row
is written as two loops: `Scan` picks the columns, then `FireAll` shoots them
in the same order. The source reads and shoots in one interleaved loop, but a
shot never changes the row, so the outcome is the same. The pass is specified
by which cells it fires at and by the level it leaves.

Files and modules:

- `basics.dfy` (`Basics`): `Option`, which stands for a nullable reference, and counting over sequences.
- `layout.dfy` (`Layout`): flat layout indices `x + y*sizeX (+ z*sizeX*sizeY)`, their decoding, and the bijection between the two.
- `blocks.dfy` (`Blocks`): the colour enum, materials, and a block's own material assignment.
- `lanes.dfy` (`Lanes`): gravity on one lane (all cells sharing x and z), as stable compaction.
- `grid.dfy` (`Grid`): the current three-dimensional grid manager: initialisation, search by reference, removal, column drop, and cell counts.
- `level.dfy` (`Level`): the progress counter, the win check and the one-shot game-over latch.
- `shooter.dfy` (`Shooter`): ammunition counting, upgrades, shooting, and one pass over the bottom row.
- `legacy_grid.dfy` (`LegacyGrid`): the earlier two-dimensional grid manager and its per-frame shift-by-one drop.
- `tutorial.dfy` (`Tutorial`): the tutorial overlay's visibility and block counter.
- `game.dfy` (`Game`): the level manager's start, which ties the grid's block count to the progress target, and how removal and shooting keep or break that tie.

Block identity stands in for C# reference equality. A block's `id` is the
layout index it was spawned from, and `InitializeGridReadsEachEntryOnce`
proves these ids are distinct. The grid is stored as `lanes[x][z][y]`, with
`y = 0` the bottom row; `Grid.At(g, Pos(x, y, z))` is the source's
`grid[x, y, z]`.

## Model

| member | source | states |
|---|---|---|
| Layout.Index3Inverse | Assets/Scripts/Managers/GridManager.cs:59-65 | Within the box, the flat index `x + y*gridX + z*gridX*gridY` lies in `[0, X*Y*Z)`, and decoding it gives back the cell. |
| Layout.Decode3Inverse | Assets/Scripts/Managers/GridManager.cs:59-65 | Every index below `X*Y*Z` decodes to a cell in the box whose flat index is that index again. |
| Layout.LayoutIndexBijective | Assets/Scripts/Managers/GridManager.cs:59-65 | The three-dimensional index is a bijection between the box and `[0, X*Y*Z)`: in range, injective, and onto. |
| Layout.Index2Inverse | Assets/Scripts/Grid/GridManager.cs:64-74 | The legacy index `x + y*gridX` stays in `[0, X*Y)` and decodes back to `(x, y)`. |
| Layout.Decode2Inverse | Assets/Scripts/Grid/GridManager.cs:64-74 | Every legacy index below `X*Y` decodes to a cell whose index is that index again. |
| Layout.LayoutIndex2Bijective | Assets/Scripts/Grid/GridManager.cs:64-74 | The legacy two-dimensional index is a bijection between the rectangle and `[0, X*Y)`. |
| Blocks.AssignMaterial | Assets/Scripts/Blocks/Block.cs:32-47 | The block's colour always becomes the given colour, and its id and piggy flag stay the same. A palette colour selects its own material, the one the grid manager's lookup names. A warning is logged exactly for `None`. A colour with no case, such as `PiggyBank`, keeps the old material. |
| Blocks.GetMaterial | Assets/Scripts/Managers/GridManager.cs:118-134 | The lookup yields a material exactly for the eight palette colours, and null for `PiggyBank` and `None`. It never yields the surprise material or a prefab's own material. |
| Blocks.AssignMaterialAgreesWithGetMaterial | Assets/Scripts/Managers/GridManager.cs:118-134 | The manager's lookup yields a material exactly for the eight palette colours. For those, the block's own switch picks that same material. |
| Blocks.PaletteMaterialsDistinct | Assets/Scripts/Blocks/Block.cs:36-43 | Two palette colours select the same material exactly when they are the same colour, and no palette colour selects the surprise material or keeps the prefab's. |
| Blocks.AssignMaterialIdempotent | Assets/Scripts/Blocks/Block.cs:32-47 | Assigning the same colour twice leaves the block as assigning it once would, and the warning is logged again only for `None`. |
| Blocks.AssignMaterialLastWins | Assets/Scripts/Blocks/Block.cs:32-47 | After any assignment, assigning a palette colour gives the same block as assigning that colour alone. |
| Grid.Spawn | Assets/Scripts/Managers/GridManager.cs:65-83 | The block spawned for a cell has the cell's flat index as its identity. It is a piggy bank exactly when the layout entry says so, and otherwise has the entry's colour. |
| Grid.InitializeGrid | Assets/Scripts/Managers/GridManager.cs:55-86 | The build faults exactly when the layout is shorter than `X*Y*Z`. Otherwise every cell holds the block spawned from its own layout entry. |
| Grid.InitializeGridReadsEachEntryOnce | Assets/Scripts/Managers/GridManager.cs:55-86 | No two cells of a fresh grid hold the same block, and every layout entry below `X*Y*Z` is the identity of some cell's block. |
| Grid.InitializedGridIsFull | Assets/Scripts/Managers/GridManager.cs:55-86 | A fresh grid has no empty cell, every lane is contiguous from the bottom, and it holds `X*Y*Z` blocks. |
| Grid.Find | Assets/Scripts/Managers/GridManager.cs:96-110 | Returns the first cell, scanning x then y then z, whose content is the reference sought. Returns `None` exactly when no cell holds it. |
| Grid.DropDownColumn | Assets/Scripts/Managers/GridManager.cs:136-153 | After the drop, the lane's blocks sit on rows `[0, k)` in their original order and the rows above are empty. No other lane changes, and a lane already contiguous is left as it is. |
| Grid.RemoveBlock | Assets/Scripts/Managers/GridManager.cs:92-111 | Progress is recorded whatever is found. A reference found nowhere leaves the grid unchanged. Otherwise only the first matching cell's lane changes: that cell is emptied and the lane compacted. |
| Grid.RemoveBlockCounts | Assets/Scripts/Managers/GridManager.cs:92-111 | For any property of cells, removal changes the number of cells with that property exactly as emptying the found cell alone would. |
| Grid.RemoveBlockOnce | Assets/Scripts/Managers/GridManager.cs:92-111 | Removing a block held by exactly one cell removes it from the grid and lowers the block count by one. It moves no other lane, keeps every lane contiguous, and adds one to progress. |
| Grid.RemoveStaleBlock | Assets/Scripts/Managers/GridManager.cs:92-111 | Removing a block that is no longer on the grid leaves the grid unchanged but still adds one to progress. |
| Grid.RemoveNull | Assets/Scripts/Managers/GridManager.cs:92-111 | A null reference matches the first empty cell. The only effect is compaction of that cell's lane, so no count changes, and a grid whose lanes are all contiguous is left unchanged. |
| Grid.FullGridBlockCount | Assets/Scripts/Managers/LevelManager.cs:35 | A grid without empty cells holds exactly `X*Y*Z` blocks, the array length the level takes as its target. |
| Grid.CountCellsAtMost | Assets/Scripts/Managers/LevelManager.cs:35 | No count of cells exceeds the grid's length `X*Y*Z`. |
| Grid.DropDownLane | Assets/Scripts/Managers/GridManager.cs:136-153 | The `targetY` loop computes the stable compaction. The result has the lane's length and its blocks in their original order, and rows are occupied exactly below the block count. |
| Lanes.CompactedKeepsOrder | Assets/Scripts/Managers/GridManager.cs:136-153 | Compaction keeps the sequence of blocks and is a permutation of the lane's cells. |
| Lanes.CompactedFixesExactlyContiguous | Assets/Scripts/Managers/GridManager.cs:136-153 | Compaction leaves a lane unchanged exactly when it is already contiguous, and compacting twice is the same as compacting once. |
| Lanes.CompactedKeepsCounts | Assets/Scripts/Managers/GridManager.cs:136-153 | Compaction keeps the number of cells satisfying any property. |
| Lanes.CompactedIsContiguous | Assets/Scripts/Managers/GridManager.cs:136-153 | A compacted lane has no block above an empty cell. |
| Level.MakeProgress | Assets/Scripts/Managers/LevelManager.cs:46-51 | Progress goes up by one, and the target and game-over flag stay. The request log gains exactly one progress-bar redraw with the new values, followed by the win screen when progress has reached the target. |
| Level.MakeProgressRequests | Assets/Scripts/Managers/LevelManager.cs:46-51 | One report keeps the earlier requests and redraws the progress bar first. The win screen is among its new requests exactly when progress has reached the target, and the game-over screen never is. |
| Level.ProgressTimesStep | Assets/Scripts/Managers/LevelManager.cs:46-51 | The closed form for `n` reports in a row (progress plus `n`, the log of those reports appended) is `MakeProgress` applied `n` times: zero reports change nothing, and one more report is one more `MakeProgress`. |
| Level.ReportLogRequests | Assets/Scripts/Managers/LevelManager.cs:76-82 | In the log of `n` reports the win screen appears exactly when `n > 0` and the last report reached the target, since the counter only rises; the game-over screen never appears. |
| Level.ProgressTimesRequests | Assets/Scripts/Managers/LevelManager.cs:46-51 | Reporting `n` blocks issues at least `n` requests. The win screen is among them exactly when `n > 0` and progress has reached the target; the game-over screen never is. |
| Level.CheckWinCondition | Assets/Scripts/Managers/LevelManager.cs:76-82 | The win screen is requested exactly when progress has reached the target, with no latch against repeats. Progress, target and the game-over flag are unchanged. |
| Level.WinRequestedAgain | Assets/Scripts/Managers/LevelManager.cs:76-82 | The win check has no latch: once progress has reached the target, each later block requests the win screen again. |
| Level.Start | Assets/Scripts/Managers/LevelManager.cs:20-22 | A level starts with zero progress, the given cell count as its target, the game not over, and nothing requested yet. |
| Level.CheckGameOverCondition | Assets/Scripts/Managers/LevelManager.cs:64-73 | Once the game is over nothing changes. Otherwise the game ends, and the game-over screen is requested, exactly when the dock is full and every shooter has stopped firing. |
| Level.GameOverIsMonotone | Assets/Scripts/Managers/LevelManager.cs:64-73 | No sequence of events clears the game-over flag once it is set. |
| Level.GameOverShownAtMostOnce | Assets/Scripts/Managers/LevelManager.cs:64-73 | Every sequence of events keeps this invariant: the game-over screen has been requested once if the game is over, and never otherwise. |
| Level.GameOverAtMostOnceFromStart | Assets/Scripts/Managers/LevelManager.cs:22 | From the start of a level, the game-over screen is requested at most once. |
| Level.ProgressCountsDestroyedBlocks | Assets/Scripts/Managers/LevelManager.cs:46-82 | After any sequence of events, progress has grown by the number of destroyed blocks reported, and the target is unchanged. |
| Game.StartLevel | Assets/Scripts/Managers/LevelManager.cs:30-36 | The level starts with progress 0, not over, and a target equal to both the fresh grid's block count and `X*Y*Z`. It faults when the layout is too short. |
| Game.DestroyBlock | Assets/Scripts/Managers/GridManager.cs:92-111 | What a caller of `RemoveBlock` gets: the grid stays well formed, progress goes up by one, and the target is unchanged. |
| Game.DestroyPresentBlock | Assets/Scripts/Managers/LevelManager.cs:76-82 | From a balanced state (blocks left + progress = target), destroying a block held by exactly one cell keeps the balance. The win screen is requested exactly when no block is left. |
| Game.DestroyStaleBlock | Assets/Scripts/Managers/GridManager.cs:92-97 | Destroying a block no longer on the grid leaves the grid alone but advances progress, so progress over-counts by one. |
| Game.ShotBreaksBalance | Assets/Scripts/Blocks/ShooterBlock/ShooterBlock.cs:99-115 | A shot reports progress to the level without removing the block from the grid. From a balanced state, one shot leaves progress one ahead and the state unbalanced. |
| Game.PassOverSession | Assets/Scripts/Blocks/ShooterBlock/ShooterBlock.cs:51-66 | A pass over a bottom row of the live grid leaves the grid unchanged. Progress then runs ahead of the removed blocks by the number of shots, so the balance survives only a pass that fired at nothing. |
| Shooter.Awake | Assets/Scripts/Blocks/ShooterBlock/ShooterBlock.cs:10-25 | A new shooter is off the dock and has no ammunition. |
| Shooter.Start | Assets/Scripts/Blocks/ShooterBlock/ShooterBlock.cs:27-36 | The count faults exactly when some grid cell is empty. Otherwise ammunition grows by the number of blocks of the shooter's colour. |
| Shooter.StartOnFreshGrid | Assets/Scripts/Blocks/ShooterBlock/ShooterBlock.cs:27-36 | On a freshly built grid, starting cannot fault, and the ammunition is between 0 and `X*Y*Z`. |
| Shooter.Upgrade | Assets/Scripts/Blocks/ShooterBlock/ShooterBlock.cs:68-71 | Ammunition grows by the given amount, and nothing else changes. |
| Shooter.UpgradesCompose | Assets/Scripts/Blocks/ShooterBlock/ShooterBlock.cs:68-71 | Two upgrades add up to one upgrade by their sum, and an upgrade by zero changes nothing. |
| Shooter.ShootAt | Assets/Scripts/Blocks/ShooterBlock/ShooterBlock.cs:99-115 | A null target changes nothing. Any other target costs one round, with no lower bound, and reports the block to the level through `MakeProgress`: progress rises by one, the bar is redrawn, and the win screen is requested exactly when the target is reached. |
| Shooter.FirstEmpty | Assets/Scripts/Blocks/ShooterBlock/ShooterBlock.cs:56-59 | The first empty cell of a row, which is where reading a colour faults. Every cell before it is occupied. |
| Shooter.Scan | Assets/Scripts/Blocks/ShooterBlock/ShooterBlock.cs:56-64 | The column loop picks, in increasing order, exactly the blocks of the shooter's colour before the first empty cell, and faults exactly when the row has an empty cell. |
| Shooter.FireAll | Assets/Scripts/Blocks/ShooterBlock/ShooterBlock.cs:99-115 | Shooting each listed block in turn costs one round per shot, and the level receives one `MakeProgress` per shot. |
| Shooter.SearchPass | Assets/Scripts/Blocks/ShooterBlock/ShooterBlock.cs:51-66 | The pass faults exactly when the row has an empty cell, and keeps the shots fired before it. Before that point it fires, in increasing column order, at exactly the blocks of its colour. Ammunition drops by the number of shots, and the level is `MakeProgress` applied once per shot, which redraws the bar each time and requests the win screen once progress reaches the target. |
| Shooter.PassOverFreshGrid | Assets/Scripts/Blocks/ShooterBlock/ShooterBlock.cs:51-66 | On a freshly built grid the bottom row is full, so a pass never faults. It fires at exactly the columns whose block has the shooter's colour, at most once per column. |
| LegacyGrid.InitializeGrid | Assets/Scripts/Grid/GridManager.cs:62-77 | The build faults exactly when the layout is shorter than `X*Y`. Otherwise every cell holds a block whose identity is its index and whose material matches its layout entry. |
| LegacyGrid.InitializeGridReadsEachEntryOnce | Assets/Scripts/Grid/GridManager.cs:62-77 | No two cells of a fresh legacy grid hold the same block, and every index below `X*Y` is some cell's identity. |
| LegacyGrid.ShiftDown | Assets/Scripts/Grid/GridManager.cs:79-94 | The drop loop faults exactly when the bottom cell is occupied, because it writes to row -1. Otherwise it moves every row down by one and empties the top row. |
| LegacyGrid.ShiftedKeepsBlocks | Assets/Scripts/Grid/GridManager.cs:79-94 | Dropping a column whose bottom is empty keeps its blocks and their order. |
| LegacyGrid.ShiftedLeavesGaps | Assets/Scripts/Grid/GridManager.cs:79-94 | The drop moves a column down by one row only, so a gap above a block survives. Compaction of the same lane closes it. |
| LegacyGrid.DropDownColumn | Assets/Scripts/Grid/GridManager.cs:79-94 | Dropping one column faults exactly when its bottom cell is occupied. Otherwise it lowers that column by one row and leaves every other column unchanged. |
| LegacyGrid.Update | Assets/Scripts/Grid/GridManager.cs:49-60 | Each column with an empty bottom cell is lowered by one row, and the other columns stay. The update faults exactly when there are columns but no rows. |
| LegacyGrid.UpdateKeepsBlocks | Assets/Scripts/Grid/GridManager.cs:49-60 | The update loses no block and reorders none, in any column. |
| LegacyGrid.UpdateFixesFullBottomRow | Assets/Scripts/Grid/GridManager.cs:49-60 | With a full bottom row the update changes nothing, even when gaps remain higher up. |
| Tutorial.Awake | Assets/Scripts/Managers/TutorialManager.cs:13-20 | The overlay is visible exactly when the level requires the tutorial, and the counter starts at zero. |
| Tutorial.ProgressTutorial | Assets/Scripts/Managers/TutorialManager.cs:22-29 | The counter goes up by one. At or past the threshold the overlay hides; below it, visibility is unchanged. The call never shows the overlay. |
| Tutorial.ProgressTimesHides | Assets/Scripts/Managers/TutorialManager.cs:22-29 | After `n > 0` blocks, the overlay is visible exactly when it was visible before and the counter is still below the threshold. Once hidden, it stays hidden. |

## Left out

- Rendering, animation coroutines, bullets, physics, audio, input and the UI widgets are left out. The UI is reduced to a log of requests: progress bar, win screen, game-over screen.
- Delays between shots are left out; they come from coroutines and `WaitForSeconds`.
- The connected (merging) shooter, the piggy bank's health, the dock and the inventory are left out. The dock enters only as the two answers `CheckGameOverCondition` receives.
- Scene loading (next level, retry) is left out.
- `CheckGameOverCondition` has no caller: its only call site, in the level manager's per-frame update, is commented out. It is modelled as the operation it would be.
- Level.MakeProgress: progress and its target are `float` in the source and are modelled as integers. Float addition of 1 is exact for whole numbers below 2^24, so the two agree while progress stays below 2^24. Progress is not bounded by the cell count: the win check has no latch, a stale reference still counts, and the endless search loop keeps firing at blocks that stay on the grid. Once a float counter reaches 2^24, adding 1 no longer changes it, while the model keeps counting.
- Shooter.Upgrade: the C# `int` ammunition count and its 32-bit wrap-around are not modelled; ammunition is an unbounded integer.
- After an exception, the model returns `None`. Faults modelled this way are: a layout shorter than the grid, a null cell read during the ammunition count, a legacy write to row -1, and the legacy update on a grid with columns but no rows (it reads row 0, which does not exist). For the first two the source has by then filled part of the grid or counted part of the ammunition, and the model drops that partial state. The two legacy faults happen before anything is written, so nothing is lost there.
- The bottom-row pass is the exception to this: `Shooter.SearchPass` reports the fault as a flag and keeps the shots fired before it, as the source does.
- Grid.Spawn: the warning `AssignMaterial` logs for a `None` layout entry is dropped. During grid initialisation every `None` entry logs "No material assigned!" once; the model keeps only the block and discards the `warned` flag.
- Shooter.Start: the ammunition count is modelled as all or nothing. In the source, blocks counted before the first null cell stay counted, and the call to an `Initialize` method that the current `Block` class does not declare is dropped.
- Shooter.SearchPass: the source indexes the three-dimensional grid with two subscripts, `grid[i, 0]`, which does not type-check against a `Block[,,]`. The pass is modelled over a given bottom row (`Shooter.BottomRow` gives depth `z`'s row). Only one pass of the endless outer loop is modelled.
- Unity's overloaded `==`, which makes a destroyed object compare equal to null, is left out. A block stays on the grid, non-null, until `RemoveBlock` empties its cell. No code path shown calls `RemoveBlock`, and a shot's `Die` only animates and destroys the game object.
- `BlockColor` in `Assets/Scripts/Blocks/Block.cs` lists the eight palette colours and `None`. The grid manager also uses `BlockColor.PiggyBank`, so the model's enum includes it. Its definition is not part of this model.
- The legacy `Initialize` sets only the block's material, not its `Color` field. The legacy block therefore keeps the prefab's colour, and the model stores it that way.
- Superseded duplicates of these classes in other directories are not part of this model.

=== FILE: basics.dfy ===
/** Small shared vocabulary: an optional value standing in for a nullable
    reference, and counting over sequences. */
module Basics {

  /** `None` plays the role of a C# `null` reference. */
  datatype Option<+T> = None | Some(value: T)

  /** Number of elements of `s` that satisfy `f`. */
  function Count<T>(s: seq<T>, f: T -> bool): (n: nat)
    ensures n <= |s|
  {
    if |s| == 0 then 0 else (if f(s[0]) then 1 else 0) + Count(s[1..], f)
  }

  lemma {:induction false} CountAppend<T>(a: seq<T>, b: seq<T>, f: T -> bool)
    ensures Count(a + b, f) == Count(a, f) + Count(b, f)
  {
    if |a| == 0 {
      assert a + b == b;
    } else {
      assert (a + b)[1..] == a[1..] + b;
      CountAppend(a[1..], b, f);
    }
  }

  lemma {:induction false} CountUpdate<T>(s: seq<T>, i: nat, v: T, f: T -> bool)
    requires i < |s|
    ensures Count(s[i := v], f) + (if f(s[i]) then 1 else 0)
         == Count(s, f) + (if f(v) then 1 else 0)
  {
    if i == 0 {
      assert s[i := v][1..] == s[1..];
    } else {
      assert s[i := v][1..] == s[1..][i - 1 := v];
      CountUpdate(s[1..], i - 1, v, f);
    }
  }

  /** A count is zero exactly when no element satisfies the predicate. */
  lemma {:induction false} CountZero<T>(s: seq<T>, f: T -> bool)
    ensures Count(s, f) == 0 <==> forall i :: 0 <= i < |s| ==> !f(s[i])
  {
    if |s| > 0 {
      CountZero(s[1..], f);
      assert forall i :: 1 <= i < |s| ==> s[i] == s[1..][i - 1];
    }
  }
}

=== FILE: blocks.dfy ===
/** Blocks, their colours and the materials that colour them. */
module Blocks {
  import Basics

  /** The colour palette. `PiggyBank` marks a reinforced block in a level
      layout; `None` is the "no colour" sentinel. */
  datatype BlockColor =
    | Red | Yellow | Blue | Green | Orange | Pink | Cyan | Purple
    | None
    | PiggyBank
  {
    /** The eight colours that have a material of their own. */
    predicate IsPalette() {
      !None? && !PiggyBank?
    }
  }

  /** The materials the grid manager exposes; `PrefabMaterial` is whatever
      material a freshly instantiated prefab already carries. */
  datatype Material =
    | RedMaterial | YellowMaterial | BlueMaterial | GreenMaterial
    | OrangeMaterial | PinkMaterial | CyanMaterial | PurpleMaterial
    | SurpriseMaterial
    | PrefabMaterial

  /** A block in the scene. `id` stands for the object's identity (two cells
      hold the same block iff they hold the same id); `piggy` tells a piggy
      bank from a normal block. */
  datatype Block = Block(id: nat, piggy: bool, color: BlockColor, material: Material)

  /** The outcome of `AssignMaterial`: the updated block, and whether a
      "no material assigned" warning was logged. */
  datatype Assignment = Assignment(block: Block, warned: bool)

  /** The colour-to-material lookup of the grid manager: a palette colour
      yields the material of the same name, `PiggyBank` and `None` yield null. */
  function GetMaterial(c: BlockColor): (m: Basics.Option<Material>)
    ensures m.Some? <==> c.IsPalette()
    ensures m.Some? ==> m.value != SurpriseMaterial && m.value != PrefabMaterial
  {
    match c
    case Red => Basics.Some(RedMaterial)
    case Yellow => Basics.Some(YellowMaterial)
    case Blue => Basics.Some(BlueMaterial)
    case Green => Basics.Some(GreenMaterial)
    case Orange => Basics.Some(OrangeMaterial)
    case Pink => Basics.Some(PinkMaterial)
    case Cyan => Basics.Some(CyanMaterial)
    case Purple => Basics.Some(PurpleMaterial)
    case PiggyBank => Basics.None
    case None => Basics.None
  }

  /** A block's own colour assignment. Its switch names each palette colour's
      material; `None` only logs a warning; `PiggyBank` has no case at all.
      Whatever the branch, the block's colour becomes `c`. */
  function AssignMaterial(b: Block, c: BlockColor): (r: Assignment)
    ensures r.block.color == c
    ensures r.block.id == b.id && r.block.piggy == b.piggy
    ensures r.warned <==> c == BlockColor.None
    ensures !c.IsPalette() ==> r.block.material == b.material
    ensures c.IsPalette() ==> r.block.material == GetMaterial(c).value
  {
    var material :=
      match c
      case Red => RedMaterial
      case Yellow => YellowMaterial
      case Blue => BlueMaterial
      case Green => GreenMaterial
      case Orange => OrangeMaterial
      case Pink => PinkMaterial
      case Cyan => CyanMaterial
      case Purple => PurpleMaterial
      case None => b.material
      case PiggyBank => b.material;
    Assignment(b.(color := c, material := material), c == BlockColor.None)
  }

  /** The two colour tables agree: a palette colour gets exactly the material
      the grid manager's lookup names, and any other colour leaves the
      material alone where the lookup yields null. */
  lemma AssignMaterialAgreesWithGetMaterial(b: Block, c: BlockColor)
    ensures GetMaterial(c).Some? <==> c.IsPalette()
    ensures c.IsPalette() ==> AssignMaterial(b, c).block.material == GetMaterial(c).value
    ensures !c.IsPalette() ==> AssignMaterial(b, c).block.material == b.material
  {
  }

  /** Distinct palette colours select distinct materials, and none of them
      selects the surprise material or leaves the prefab's material. */
  lemma PaletteMaterialsDistinct(c: BlockColor, d: BlockColor)
    requires c.IsPalette() && d.IsPalette()
    ensures GetMaterial(c) == GetMaterial(d) <==> c == d
    ensures GetMaterial(c).value != SurpriseMaterial && GetMaterial(c).value != PrefabMaterial
  {
  }

  /** Assigning the same colour twice leaves the block as assigning it once;
      only the warning for `None` is logged again. */
  lemma AssignMaterialIdempotent(b: Block, c: BlockColor)
    ensures AssignMaterial(AssignMaterial(b, c).block, c).block == AssignMaterial(b, c).block
    ensures AssignMaterial(AssignMaterial(b, c).block, c).warned == AssignMaterial(b, c).warned
  {
  }

  /** The last assignment wins: assigning `c` and then `d` gives the same
      colour and material as assigning `d` alone, when `d` is a palette colour. */
  lemma AssignMaterialLastWins(b: Block, c: BlockColor, d: BlockColor)
    requires d.IsPalette()
    ensures AssignMaterial(AssignMaterial(b, c).block, d).block == AssignMaterial(b, d).block
  {
  }
}

=== FILE: game.dfy ===
/** A level in play: the grid the level manager builds at start, and the
    progress counter whose target is the grid's cell count. `RemoveBlock`
    reports progress before the grid is searched, so through it the counter
    and the grid agree only while every reported block is actually on it. A
    shot reports progress without touching the grid at all. */
module Game {
  import opened Basics
  import Blocks
  import Grid
  import Level
  import Shooter

  datatype Session = Session(grid: Grid.Grid, level: Level.Level)

  /** The level manager's start: build the grid from the layout, then take
      the grid's cell count as the progress target. */
  function StartLevel(layout: seq<Blocks.BlockColor>, sizeX: nat, sizeY: nat, sizeZ: nat,
                      prefabs: Grid.Prefabs): (r: Option<Session>)
    ensures r.Some? <==> sizeX * sizeY * sizeZ <= |layout|
    ensures r.Some? ==> Grid.Valid(r.value.grid)
    ensures r.Some? ==> r.value.level.maxProgress == Grid.BlockCount(r.value.grid) == sizeX * sizeY * sizeZ
    ensures r.Some? ==> r.value.level.progress == 0 && !r.value.level.gameIsOver && r.value.level.requests == []
    ensures r.Some? ==> Balanced(r.value)
  {
    match Grid.InitializeGrid(layout, sizeX, sizeY, sizeZ, prefabs)
    case None => None
    case Some(g) =>
      Grid.InitializedGridIsFull(layout, sizeX, sizeY, sizeZ, prefabs);
      Some(Session(g, Level.Start(g.sizeX * g.sizeY * g.sizeZ)))
  }

  /** The grid's blocks plus the progress made add up to the target. */
  predicate Balanced(s: Session)
  {
    Grid.Valid(s.grid) && Grid.BlockCount(s.grid) + s.level.progress == s.level.maxProgress
  }

  /** What a caller of the grid manager's `RemoveBlock` gets for block `b`:
      the block's lane is cleared and compacted, and progress is recorded.
      No shown code path calls it; a shot goes through `Shooter.ShootAt`,
      which reports progress to the level and leaves the grid alone. */
  function DestroyBlock(s: Session, b: Blocks.Block): (r: Session)
    requires Grid.Valid(s.grid)
    ensures Grid.Valid(r.grid)
    ensures r.level.progress == s.level.progress + 1 && r.level.maxProgress == s.level.maxProgress
  {
    var (g, l) := Grid.RemoveBlock(s.grid, s.level, Some(b));
    Session(g, l)
  }

  /** Destroying a block that is on the grid once keeps the balance, and the
      win screen is requested exactly when that was the last block. */
  lemma DestroyPresentBlock(s: Session, b: Blocks.Block)
    requires Balanced(s) && Grid.Occurrences(s.grid, b) == 1
    ensures Balanced(DestroyBlock(s, b))
    ensures Level.WinScreen in Level.NewRequests(s.level, DestroyBlock(s, b).level)
            <==> Grid.BlockCount(DestroyBlock(s, b).grid) == 0
  {
    Grid.RemoveBlockOnce(s.grid, s.level, b);
    Level.MakeProgressRequests(s.level);
  }

  /** Destroying a block that is no longer on the grid still advances the
      counter: afterwards progress over-counts the blocks removed by one. */
  lemma DestroyStaleBlock(s: Session, b: Blocks.Block)
    requires Balanced(s) && Grid.Occurrences(s.grid, b) == 0
    ensures DestroyBlock(s, b).grid == s.grid
    ensures Grid.BlockCount(DestroyBlock(s, b).grid) + DestroyBlock(s, b).level.progress
            == s.level.maxProgress + 1
  {
    Grid.RemoveStaleBlock(s.grid, s.level, b);
  }

  /** The shot path as the source has it: `ShootAt` reports progress to the
      level directly and the grid keeps the block, so the first shot at a
      block breaks the balance by one. */
  lemma ShotBreaksBalance(s: Session, sh: Shooter.Shooter, target: Grid.Cell)
    requires Balanced(s) && target.Some?
    ensures Grid.BlockCount(s.grid) + Shooter.ShootAt(sh, s.level, target).1.progress
            == s.level.maxProgress + 1
    ensures !Balanced(Session(s.grid, Shooter.ShootAt(sh, s.level, target).1))
  {
  }

  /** One shooter pass over the bottom row of depth `z`, applied to a level
      in play. The grid keeps every block the pass fires at, so afterwards
      progress runs ahead of the removed blocks by the number of shots, and
      the balance survives only a pass that fired at nothing. */
  method PassOverSession(s: Session, sh: Shooter.Shooter, z: nat)
    returns (r: Session, sh': Shooter.Shooter, fired: seq<nat>, faulted: bool)
    requires Balanced(s) && s.grid.sizeY > 0 && z < s.grid.sizeZ
    ensures r.grid == s.grid
    ensures Grid.BlockCount(r.grid) + r.level.progress == r.level.maxProgress + |fired|
    ensures Balanced(r) <==> |fired| == 0
    ensures sh'.ammo == sh.ammo - |fired|
  {
    var level';
    sh', level', fired, faulted := Shooter.SearchPass(sh, s.level, Shooter.BottomRow(s.grid, z));
    r := Session(s.grid, level');
  }
}

=== FILE: grid.dfy ===
/** The live block grid: a box of cells `sizeX` wide, `sizeY` tall (the
    gravity axis) and `sizeZ` deep, each cell empty or holding one block.
    The grid is kept as lanes: `lanes[x][z]` lists the cells of lane (x, z)
    from row 0 upwards, so `At(g, Pos(x, y, z))` is the cell at (x, y, z). */
module Grid {
  import opened Basics
  import opened Layout
  import opened Lanes
  import Blocks
  import Level

  type Cell = Option<Blocks.Block>

  datatype Grid = Grid(sizeX: nat, sizeY: nat, sizeZ: nat, lanes: seq<seq<seq<Cell>>>)

  /** The colours serialized on the two prefabs the grid instantiates. */
  datatype Prefabs = Prefabs(blockColor: Blocks.BlockColor, piggyColor: Blocks.BlockColor)

  /** The lanes fill the box exactly. */
  predicate Valid(g: Grid)
  {
    && |g.lanes| == g.sizeX
    && (forall x :: 0 <= x < g.sizeX ==> |g.lanes[x]| == g.sizeZ)
    && (forall x, z :: 0 <= x < g.sizeX && 0 <= z < g.sizeZ ==> |g.lanes[x][z]| == g.sizeY)
  }

  predicate InBox(g: Grid, p: Pos)
  {
    InBox3(p, g.sizeX, g.sizeY, g.sizeZ)
  }

  function At(g: Grid, p: Pos): Cell
    requires Valid(g) && InBox(g, p)
  {
    g.lanes[p.x][p.z][p.y]
  }

  function Lane(g: Grid, x: int, z: int): (lane: seq<Cell>)
    requires Valid(g) && 0 <= x < g.sizeX && 0 <= z < g.sizeZ
    ensures |lane| == g.sizeY
  {
    g.lanes[x][z]
  }

  predicate SameShape(g: Grid, h: Grid)
  {
    g.sizeX == h.sizeX && g.sizeY == h.sizeY && g.sizeZ == h.sizeZ
  }

  /** `g` and `h` agree on every lane except possibly lane (x, z). */
  predicate OtherLanesUnchanged(g: Grid, h: Grid, x: int, z: int)
    requires Valid(g) && Valid(h) && SameShape(g, h)
  {
    forall x', z' :: 0 <= x' < g.sizeX && 0 <= z' < g.sizeZ && (x' != x || z' != z) ==>
      Lane(h, x', z') == Lane(g, x', z')
  }

  /** Every lane is contiguous from row 0: no block floats above a gap. */
  predicate AllContiguous(g: Grid)
    requires Valid(g)
  {
    forall x, z :: 0 <= x < g.sizeX && 0 <= z < g.sizeZ ==> Contiguous(Lane(g, x, z))
  }

  /** Replace lane (x, z). */
  function SetLane(g: Grid, x: int, z: int, lane: seq<Cell>): (r: Grid)
    requires Valid(g) && 0 <= x < g.sizeX && 0 <= z < g.sizeZ && |lane| == g.sizeY
    ensures Valid(r) && SameShape(g, r)
    ensures Lane(r, x, z) == lane
    ensures OtherLanesUnchanged(g, r, x, z)
  {
    g.(lanes := g.lanes[x := g.lanes[x][z := lane]])
  }

  // ---------------------------------------------------------------------
  // Level layout decoding

  /** The block spawned for cell `p`: it reads layout entry `Index3(p)`, is a
      piggy bank exactly when that entry is `PiggyBank`, and otherwise is a
      normal block coloured by the entry. Its identity is the entry's index. */
  function Spawn(layout: seq<Blocks.BlockColor>, prefabs: Prefabs,
                 sizeX: nat, sizeY: nat, sizeZ: nat, p: Pos): (b: Blocks.Block)
    requires InBox3(p, sizeX, sizeY, sizeZ) && sizeX * sizeY * sizeZ <= |layout|
    ensures 0 <= Index3(p, sizeX, sizeY) < |layout| && b.id == Index3(p, sizeX, sizeY)
    ensures b.piggy <==> layout[Index3(p, sizeX, sizeY)] == Blocks.PiggyBank
    ensures !b.piggy ==> b.color == layout[Index3(p, sizeX, sizeY)]
    ensures b.piggy ==> b.color == prefabs.piggyColor
  {
    Index3Inverse(p, sizeX, sizeY, sizeZ);
    var index := Index3(p, sizeX, sizeY);
    if layout[index] == Blocks.PiggyBank then
      Blocks.Block(index, true, prefabs.piggyColor, Blocks.PrefabMaterial)
    else
      Blocks.AssignMaterial(Blocks.Block(index, false, prefabs.blockColor, Blocks.PrefabMaterial),
                            layout[index]).block
  }

  /** Every cell of the box holding its spawned block. */
  function Populate(layout: seq<Blocks.BlockColor>, sizeX: nat, sizeY: nat, sizeZ: nat,
                    prefabs: Prefabs): (g: Grid)
    requires sizeX * sizeY * sizeZ <= |layout|
    ensures Valid(g) && g.sizeX == sizeX && g.sizeY == sizeY && g.sizeZ == sizeZ
    ensures forall p :: InBox(g, p) ==> At(g, p) == Some(Spawn(layout, prefabs, sizeX, sizeY, sizeZ, p))
  {
    Grid(sizeX, sizeY, sizeZ,
      seq(sizeX, x requires 0 <= x < sizeX =>
        seq(sizeZ, z requires 0 <= z < sizeZ =>
          seq(sizeY, y requires 0 <= y < sizeY =>
            Some(Spawn(layout, prefabs, sizeX, sizeY, sizeZ, Pos(x, y, z)))))))
  }

  /** A fresh grid populated from a flat layout. The layout is not checked
      against the grid's size: a layout shorter than the grid faults on the
      first missing entry (`None`), a longer one has its tail ignored. Every
      cell gets a block; it is a piggy bank exactly when its entry says so,
      and otherwise has the entry's colour. */
  function InitializeGrid(layout: seq<Blocks.BlockColor>, sizeX: nat, sizeY: nat, sizeZ: nat,
                          prefabs: Prefabs): (r: Option<Grid>)
    ensures r.Some? <==> sizeX * sizeY * sizeZ <= |layout|
    ensures r.Some? ==>
              && Valid(r.value) && r.value.sizeX == sizeX
              && r.value.sizeY == sizeY && r.value.sizeZ == sizeZ
    ensures r.Some? ==> forall p :: InBox(r.value, p) ==>
              && 0 <= Index3(p, sizeX, sizeY) < |layout|
              && At(r.value, p).Some?
              && At(r.value, p).value.id == Index3(p, sizeX, sizeY)
              && (At(r.value, p).value.piggy <==> layout[Index3(p, sizeX, sizeY)] == Blocks.PiggyBank)
              && (!At(r.value, p).value.piggy ==> At(r.value, p).value.color == layout[Index3(p, sizeX, sizeY)])
    ensures r.Some? ==> forall p :: InBox(r.value, p) ==>
              At(r.value, p) == Some(Spawn(layout, prefabs, sizeX, sizeY, sizeZ, p))
  {
    if |layout| < sizeX * sizeY * sizeZ then None
    else
      var g := Populate(layout, sizeX, sizeY, sizeZ, prefabs);
      assert forall p :: InBox(g, p) ==>
               && 0 <= Index3(p, sizeX, sizeY) < |layout|
               && At(g, p).Some?
               && At(g, p).value.id == Index3(p, sizeX, sizeY)
               && (At(g, p).value.piggy <==> layout[Index3(p, sizeX, sizeY)] == Blocks.PiggyBank)
               && (!At(g, p).value.piggy ==> At(g, p).value.color == layout[Index3(p, sizeX, sizeY)])
      by {
        forall p | InBox(g, p)
          ensures At(g, p) == Some(Spawn(layout, prefabs, sizeX, sizeY, sizeZ, p))
        {
        }
      }
      Some(g)
  }

  /** Decoding reads each layout entry exactly once: the cells of a fresh grid
      hold pairwise distinct blocks, and every entry below the grid's size is
      read by the cell `Decode3` names. */
  lemma InitializeGridReadsEachEntryOnce(layout: seq<Blocks.BlockColor>, sizeX: nat, sizeY: nat,
                                         sizeZ: nat, prefabs: Prefabs)
    requires sizeX * sizeY * sizeZ <= |layout|
    ensures var g := InitializeGrid(layout, sizeX, sizeY, sizeZ, prefabs).value;
      && (forall p, q :: InBox(g, p) && InBox(g, q) && At(g, p).value.id == At(g, q).value.id ==> p == q)
      && (forall i :: 0 <= i < sizeX * sizeY * sizeZ ==>
            InBox(g, Decode3(i, sizeX, sizeY)) && At(g, Decode3(i, sizeX, sizeY)).value.id == i)
  {
    LayoutIndexBijective(sizeX, sizeY, sizeZ);
  }

  // ---------------------------------------------------------------------
  // Finding a block

  /** `c` holds what `t` refers to: both null, or the same block object. */
  predicate SameRef(c: Cell, t: Cell)
  {
    (c.None? && t.None?) || (c.Some? && t.Some? && c.value.id == t.value.id)
  }

  /** `p` comes before `q` when scanning x outermost, then y, then z. */
  predicate Before(p: Pos, q: Pos)
  {
    p.x < q.x || (p.x == q.x && (p.y < q.y || (p.y == q.y && p.z < q.z)))
  }

  /** The scan from (x, y, z) onwards, in scan order, for a cell holding `t`. */
  function Locate(g: Grid, t: Cell, x: int, y: int, z: int): (r: Option<Pos>)
    requires Valid(g)
    requires 0 <= x <= g.sizeX && 0 <= y <= g.sizeY && 0 <= z <= g.sizeZ
    ensures r.Some? ==> InBox(g, r.value) && SameRef(At(g, r.value), t) && !Before(r.value, Pos(x, y, z))
    ensures forall q :: InBox(g, q) && !Before(q, Pos(x, y, z)) && (r.Some? ==> Before(q, r.value))
              ==> !SameRef(At(g, q), t)
    decreases g.sizeX - x, g.sizeY - y, g.sizeZ - z
  {
    if x == g.sizeX then None
    else if y == g.sizeY then Locate(g, t, x + 1, 0, 0)
    else if z == g.sizeZ then Locate(g, t, x, y + 1, 0)
    else if SameRef(At(g, Pos(x, y, z)), t) then Some(Pos(x, y, z))
    else Locate(g, t, x, y, z + 1)
  }

  /** The first cell in scan order that holds `t`, if any. */
  function Find(g: Grid, t: Cell): (r: Option<Pos>)
    requires Valid(g)
    ensures r.Some? ==> InBox(g, r.value) && SameRef(At(g, r.value), t)
    ensures r.Some? ==> forall q :: InBox(g, q) && Before(q, r.value) ==> !SameRef(At(g, q), t)
    ensures r.None? <==> forall q :: InBox(g, q) ==> !SameRef(At(g, q), t)
  {
    Locate(g, t, 0, 0, 0)
  }

  // ---------------------------------------------------------------------
  // Gravity and removal

  /** Gravity on lane (x, z): its blocks settle onto rows `[0, k)` in their
      original order, the rows above become empty, and no other lane moves.
      A lane already contiguous from row 0 is left as it is. */
  function DropDownColumn(g: Grid, x: int, z: int): (r: Grid)
    requires Valid(g) && 0 <= x < g.sizeX && 0 <= z < g.sizeZ
    ensures Valid(r) && SameShape(g, r)
    ensures OtherLanesUnchanged(g, r, x, z)
    ensures forall y :: 0 <= y < g.sizeY ==>
              (At(r, Pos(x, y, z)).Some? <==> y < |Occupied(Lane(g, x, z))|)
    ensures Occupied(Lane(r, x, z)) == Occupied(Lane(g, x, z))
    ensures Contiguous(Lane(r, x, z))
    ensures Contiguous(Lane(g, x, z)) ==> r == g
  {
    var lane := Lane(g, x, z);
    CompactedShape(lane);
    CompactedKeepsOrder(lane);
    CompactedFixesExactlyContiguous(lane);
    assert Contiguous(lane) ==> SetLane(g, x, z, Compacted(lane)) == g by {
      if Contiguous(lane) {
        assert g.lanes[x][z := lane] == g.lanes[x];
        assert g.lanes[x := g.lanes[x]] == g.lanes;
      }
    }
    SetLane(g, x, z, Compacted(lane))
  }

  /** Lane gravity as the game runs it: walk the lane upwards with a
      `targetY` cursor on the lowest free row; every block found above the
      cursor moves down to it, and the cursor rises past each block. */
  method DropDownLane(lane: seq<Cell>) returns (r: seq<Cell>)
    ensures |r| == |lane|
    ensures forall y :: 0 <= y < |r| ==> (r[y].Some? <==> y < |Occupied(lane)|)
    ensures Occupied(r) == Occupied(lane)
    ensures r == Compacted(lane)
  {
    PartlySettledEnds(lane);
    r := lane;
    var targetY := 0;
    for y := 0 to |lane|
      invariant targetY == |Occupied(lane[..y])|
      invariant r == PartlySettled(lane, y)
    {
      DropDownStep(lane, y);
      var cell := r[y];
      if cell.None? {
        continue;
      }
      if y != targetY {
        r := r[targetY := cell][y := None];
      }
      targetY := targetY + 1;
    }
    CompactedShape(lane);
    CompactedKeepsOrder(lane);
  }

  /** Empty the cell at `p`. */
  function ClearCell(g: Grid, p: Pos): (r: Grid)
    requires Valid(g) && InBox(g, p)
    ensures Valid(r) && SameShape(g, r)
  {
    SetLane(g, p.x, p.z, Lane(g, p.x, p.z)[p.y := None])
  }

  /** Remove a block by reference. Progress is recorded first, whatever
      happens next. The grid is then scanned x outermost, y, then z, and only
      the first cell holding `t` is emptied and its lane dropped down; a
      reference found nowhere leaves the grid unchanged. A null `t` matches
      the first empty cell, so its lane is compacted. */
  function RemoveBlock(g: Grid, level: Level.Level, t: Cell): (r: (Grid, Level.Level))
    requires Valid(g)
    ensures r.1 == Level.MakeProgress(level)
    ensures Valid(r.0) && SameShape(g, r.0)
    ensures Find(g, t).None? ==> r.0 == g
    ensures Find(g, t).Some? ==>
              var p := Find(g, t).value;
              && OtherLanesUnchanged(g, r.0, p.x, p.z)
              && Lane(r.0, p.x, p.z) == Compacted(Lane(g, p.x, p.z)[p.y := None])
  {
    var progressed := Level.MakeProgress(level);
    match Find(g, t)
    case None => (g, progressed)
    case Some(p) => (DropDownColumn(ClearCell(g, p), p.x, p.z), progressed)
  }

  // ---------------------------------------------------------------------
  // Counting cells

  function ColumnCount(column: seq<seq<Cell>>, f: Cell -> bool): nat
  {
    if |column| == 0 then 0 else Count(column[0], f) + ColumnCount(column[1..], f)
  }

  function LanesCount(lanes: seq<seq<seq<Cell>>>, f: Cell -> bool): nat
  {
    if |lanes| == 0 then 0 else ColumnCount(lanes[0], f) + LanesCount(lanes[1..], f)
  }

  /** The number of cells of the grid that satisfy `f`. */
  function CountCells(g: Grid, f: Cell -> bool): nat
  {
    LanesCount(g.lanes, f)
  }

  predicate IsOccupied(c: Cell)
  {
    c.Some?
  }

  predicate AnyCell(c: Cell)
  {
    true
  }

  function HoldsBlock(b: Blocks.Block): Cell -> bool
  {
    (c: Cell) => c.Some? && c.value.id == b.id
  }

  function HasColor(color: Blocks.BlockColor): Cell -> bool
  {
    (c: Cell) => c.Some? && c.value.color == color
  }

  function BlockCount(g: Grid): nat
  {
    CountCells(g, IsOccupied)
  }

  /** How many cells hold block `b`. */
  function Occurrences(g: Grid, b: Blocks.Block): nat
  {
    CountCells(g, HoldsBlock(b))
  }

  /** How many cells hold a block of colour `color`. */
  function ColorCount(g: Grid, color: Blocks.BlockColor): nat
  {
    CountCells(g, HasColor(color))
  }

  lemma {:induction false} ColumnCountUpdate(column: seq<seq<Cell>>, z: nat, lane: seq<Cell>, f: Cell -> bool)
    requires z < |column|
    ensures ColumnCount(column[z := lane], f) + Count(column[z], f) == ColumnCount(column, f) + Count(lane, f)
  {
    if z == 0 {
      assert column[z := lane][1..] == column[1..];
    } else {
      assert column[z := lane][1..] == column[1..][z - 1 := lane];
      ColumnCountUpdate(column[1..], z - 1, lane, f);
    }
  }

  lemma {:induction false} LanesCountUpdate(lanes: seq<seq<seq<Cell>>>, x: nat, column: seq<seq<Cell>>, f: Cell -> bool)
    requires x < |lanes|
    ensures LanesCount(lanes[x := column], f) + ColumnCount(lanes[x], f) == LanesCount(lanes, f) + ColumnCount(column, f)
  {
    if x == 0 {
      assert lanes[x := column][1..] == lanes[1..];
    } else {
      assert lanes[x := column][1..] == lanes[1..][x - 1 := column];
      LanesCountUpdate(lanes[1..], x - 1, column, f);
    }
  }

  /** Replacing one lane changes a count by the difference of that lane's counts. */
  lemma CountCellsSetLane(g: Grid, x: int, z: int, lane: seq<Cell>, f: Cell -> bool)
    requires Valid(g) && 0 <= x < g.sizeX && 0 <= z < g.sizeZ && |lane| == g.sizeY
    ensures CountCells(SetLane(g, x, z, lane), f) + Count(Lane(g, x, z), f)
         == CountCells(g, f) + Count(lane, f)
  {
    ColumnCountUpdate(g.lanes[x], z, lane, f);
    LanesCountUpdate(g.lanes, x, g.lanes[x][z := lane], f);
  }

  lemma {:induction false} ColumnCountZero(column: seq<seq<Cell>>, f: Cell -> bool)
    ensures ColumnCount(column, f) == 0 <==>
      forall z, y :: 0 <= z < |column| && 0 <= y < |column[z]| ==> !f(column[z][y])
  {
    if |column| > 0 {
      ColumnCountZero(column[1..], f);
      CountZero(column[0], f);
      assert forall z :: 1 <= z < |column| ==> column[z] == column[1..][z - 1];
    }
  }

  lemma {:induction false} LanesCountZero(lanes: seq<seq<seq<Cell>>>, f: Cell -> bool)
    ensures LanesCount(lanes, f) == 0 <==>
      forall x, z, y :: 0 <= x < |lanes| && 0 <= z < |lanes[x]| && 0 <= y < |lanes[x][z]| ==> !f(lanes[x][z][y])
  {
    if |lanes| > 0 {
      LanesCountZero(lanes[1..], f);
      ColumnCountZero(lanes[0], f);
      assert forall x :: 1 <= x < |lanes| ==> lanes[x] == lanes[1..][x - 1];
    }
  }

  /** A count is zero exactly when no cell of the grid satisfies the predicate. */
  lemma CountCellsZero(g: Grid, f: Cell -> bool)
    requires Valid(g)
    ensures CountCells(g, f) == 0 <==> forall p :: InBox(g, p) ==> !f(At(g, p))
  {
    LanesCountZero(g.lanes, f);
    if CountCells(g, f) != 0 {
      var x, z, y :| 0 <= x < |g.lanes| && 0 <= z < |g.lanes[x]| && 0 <= y < |g.lanes[x][z]| && f(g.lanes[x][z][y]);
      assert f(At(g, Pos(x, y, z)));
    }
  }

  lemma {:induction false} CountAll(s: seq<Cell>, f: Cell -> bool)
    requires forall i :: 0 <= i < |s| ==> f(s[i])
    ensures Count(s, f) == |s|
  {
    if |s| > 0 {
      assert forall i :: 1 <= i < |s| ==> s[i] == s[1..][i - 1];
      CountAll(s[1..], f);
    }
  }

  lemma {:induction false} ColumnCountAll(column: seq<seq<Cell>>, f: Cell -> bool, height: nat)
    requires forall z :: 0 <= z < |column| ==> |column[z]| == height
    requires forall z, y :: 0 <= z < |column| && 0 <= y < |column[z]| ==> f(column[z][y])
    ensures ColumnCount(column, f) == |column| * height
  {
    if |column| > 0 {
      assert forall z :: 1 <= z < |column| ==> column[z] == column[1..][z - 1];
      CountAll(column[0], f);
      ColumnCountAll(column[1..], f, height);
    }
  }

  lemma {:induction false} LanesCountAll(lanes: seq<seq<seq<Cell>>>, f: Cell -> bool, depth: nat, height: nat)
    requires forall x :: 0 <= x < |lanes| ==> |lanes[x]| == depth
    requires forall x, z :: 0 <= x < |lanes| && 0 <= z < depth ==> |lanes[x][z]| == height
    requires forall x, z, y :: 0 <= x < |lanes| && 0 <= z < depth && 0 <= y < height ==> f(lanes[x][z][y])
    ensures LanesCount(lanes, f) == |lanes| * (depth * height)
  {
    if |lanes| > 0 {
      assert forall x :: 1 <= x < |lanes| ==> lanes[x] == lanes[1..][x - 1];
      ColumnCountAll(lanes[0], f, height);
      LanesCountAll(lanes[1..], f, depth, height);
    }
  }

  lemma {:induction false} ColumnCountAtMost(column: seq<seq<Cell>>, f: Cell -> bool)
    ensures ColumnCount(column, f) <= ColumnCount(column, AnyCell)
  {
    if |column| > 0 {
      CountAll(column[0], AnyCell);
      ColumnCountAtMost(column[1..], f);
    }
  }

  lemma {:induction false} LanesCountAtMost(lanes: seq<seq<seq<Cell>>>, f: Cell -> bool)
    ensures LanesCount(lanes, f) <= LanesCount(lanes, AnyCell)
  {
    if |lanes| > 0 {
      ColumnCountAtMost(lanes[0], f);
      LanesCountAtMost(lanes[1..], f);
    }
  }

  /** No count exceeds the number of cells. */
  lemma CountCellsAtMost(g: Grid, f: Cell -> bool)
    requires Valid(g)
    ensures CountCells(g, f) <= g.sizeX * g.sizeY * g.sizeZ
  {
    LanesCountAtMost(g.lanes, f);
    CountCellsAll(g, AnyCell);
  }

  /** A predicate every cell satisfies counts `sizeX * sizeY * sizeZ` cells. */
  lemma CountCellsAll(g: Grid, f: Cell -> bool)
    requires Valid(g)
    requires forall p :: InBox(g, p) ==> f(At(g, p))
    ensures CountCells(g, f) == g.sizeX * g.sizeY * g.sizeZ
  {
    forall x, z, y | 0 <= x < g.sizeX && 0 <= z < g.sizeZ && 0 <= y < g.sizeY
      ensures f(g.lanes[x][z][y])
    {
      assert InBox(g, Pos(x, y, z));
    }
    LanesCountAll(g.lanes, f, g.sizeZ, g.sizeY);
    MulRearrange(g.sizeX, g.sizeY, g.sizeZ);
  }

  // ---------------------------------------------------------------------
  // Properties of removal

  /** Removal as a cell count: whatever cells `f` selects, removing found cell
      `p` changes the count exactly as if `p` alone had been emptied, because
      compaction only moves cells around inside the lane. */
  lemma RemoveBlockCounts(g: Grid, level: Level.Level, t: Cell, f: Cell -> bool)
    requires Valid(g) && Find(g, t).Some?
    ensures var p := Find(g, t).value;
      CountCells(RemoveBlock(g, level, t).0, f) + (if f(At(g, p)) then 1 else 0)
      == CountCells(g, f) + (if f(None) then 1 else 0)
  {
    var p := Find(g, t).value;
    var lane := Lane(g, p.x, p.z);
    var cleared := lane[p.y := None];
    CountUpdate(lane, p.y, None, f);
    CountCellsSetLane(g, p.x, p.z, cleared, f);
    var h := ClearCell(g, p);
    assert Lane(h, p.x, p.z) == cleared;
    CompactedKeepsCounts(cleared, f);
    CountCellsSetLane(h, p.x, p.z, Compacted(cleared), f);
  }

  /** Removing a block that sits in exactly one cell: the block is gone from
      every cell, one block fewer is left, only the lane it sat in changes,
      and if every lane was contiguous before, every lane is contiguous after. */
  lemma RemoveBlockOnce(g: Grid, level: Level.Level, b: Blocks.Block)
    requires Valid(g) && Occurrences(g, b) == 1
    ensures Find(g, Some(b)).Some?
    ensures var r := RemoveBlock(g, level, Some(b));
      && Occurrences(r.0, b) == 0
      && (forall q :: InBox(r.0, q) ==> !(At(r.0, q).Some? && At(r.0, q).value.id == b.id))
      && BlockCount(r.0) + 1 == BlockCount(g)
      && OtherLanesUnchanged(g, r.0, Find(g, Some(b)).value.x, Find(g, Some(b)).value.z)
      && (AllContiguous(g) ==> AllContiguous(r.0))
      && r.1.progress == level.progress + 1
  {
    CountCellsZero(g, HoldsBlock(b));
    var p := Find(g, Some(b)).value;
    var r := RemoveBlock(g, level, Some(b));
    RemoveBlockCounts(g, level, Some(b), HoldsBlock(b));
    RemoveBlockCounts(g, level, Some(b), IsOccupied);
    CountCellsZero(r.0, HoldsBlock(b));
    CompactedIsContiguous(Lane(g, p.x, p.z)[p.y := None]);
  }

  /** A reference found nowhere in the grid (say, a block already removed)
      leaves the grid as it was, but progress is still recorded. */
  lemma RemoveStaleBlock(g: Grid, level: Level.Level, b: Blocks.Block)
    requires Valid(g) && Occurrences(g, b) == 0
    ensures RemoveBlock(g, level, Some(b)).0 == g
    ensures RemoveBlock(g, level, Some(b)).1.progress == level.progress + 1
  {
    CountCellsZero(g, HoldsBlock(b));
    assert forall q :: InBox(g, q) ==> !SameRef(At(g, q), Some(b));
  }

  /** Removing a null reference empties nothing: every count is kept, the
      first empty cell's lane (if any) ends up contiguous, and a grid whose
      lanes are all contiguous is left unchanged. */
  lemma RemoveNull(g: Grid, level: Level.Level, f: Cell -> bool)
    requires Valid(g)
    ensures CountCells(RemoveBlock(g, level, None).0, f) == CountCells(g, f)
    ensures Find(g, None).Some? ==>
      Contiguous(Lane(RemoveBlock(g, level, None).0, Find(g, None).value.x, Find(g, None).value.z))
    ensures AllContiguous(g) ==> RemoveBlock(g, level, None).0 == g
  {
    if Find(g, None).Some? {
      var p := Find(g, None).value;
      var lane := Lane(g, p.x, p.z);
      assert lane[p.y := None] == lane;
      RemoveBlockCounts(g, level, None, f);
      CompactedIsContiguous(lane);
      if AllContiguous(g) {
        assert ClearCell(g, p) == g by {
          assert g.lanes[p.x][p.z := lane] == g.lanes[p.x];
          assert g.lanes[p.x := g.lanes[p.x]] == g.lanes;
        }
      }
    }
  }

  /** A full grid holds one block per cell. */
  lemma FullGridBlockCount(g: Grid)
    requires Valid(g) && Find(g, None).None?
    ensures BlockCount(g) == g.sizeX * g.sizeY * g.sizeZ
  {
    forall p | InBox(g, p) ensures IsOccupied(At(g, p)) {
      assert !SameRef(At(g, p), None);
    }
    CountCellsAll(g, IsOccupied);
  }

  /** A freshly initialized grid is full and all its lanes are contiguous. */
  lemma InitializedGridIsFull(layout: seq<Blocks.BlockColor>, sizeX: nat, sizeY: nat, sizeZ: nat,
                              prefabs: Prefabs)
    requires sizeX * sizeY * sizeZ <= |layout|
    ensures var g := InitializeGrid(layout, sizeX, sizeY, sizeZ, prefabs).value;
      Find(g, None).None? && AllContiguous(g) && BlockCount(g) == sizeX * sizeY * sizeZ
  {
    var g := InitializeGrid(layout, sizeX, sizeY, sizeZ, prefabs).value;
    forall x, z | 0 <= x < sizeX && 0 <= z < sizeZ
      ensures Contiguous(Lane(g, x, z))
    {
      forall i | 0 <= i < sizeY ensures Lane(g, x, z)[i].Some? {
        assert InBox(g, Pos(x, i, z));
      }
    }
    FullGridBlockCount(g);
  }
}

=== FILE: lanes.dfy ===
/** A lane is the column of cells sharing one (x, z) coordinate, listed from
    row 0 (the bottom) upwards. This module holds lane gravity: the stable
    compaction that moves every block down over the empty cells below it. */
module Lanes {
  import opened Basics

  /** The occupied cells of a lane, bottom to top. */
  function Occupied<T>(lane: seq<Option<T>>): (r: seq<Option<T>>)
    ensures |r| <= |lane|
    ensures forall i :: 0 <= i < |r| ==> r[i].Some?
  {
    if |lane| == 0 then []
    else (if lane[0].Some? then [lane[0]] else []) + Occupied(lane[1..])
  }

  /** `n` empty cells. */
  function Empties<T>(n: nat): (r: seq<Option<T>>)
    ensures |r| == n
    ensures forall i :: 0 <= i < n ==> r[i].None?
  {
    seq(n, _ => None)
  }

  /** The lane with its blocks settled: the occupied cells in their original
      order, followed by as many empty cells as the lane had. */
  function Compacted<T>(lane: seq<Option<T>>): seq<Option<T>>
  {
    Occupied(lane) + Empties(|lane| - |Occupied(lane)|)
  }

  /** No occupied cell sits above an empty one. */
  predicate Contiguous<T>(lane: seq<Option<T>>)
  {
    forall i, j :: 0 <= i < j < |lane| && lane[i].None? ==> lane[j].None?
  }

  lemma {:induction false} OccupiedAppend<T>(a: seq<Option<T>>, b: seq<Option<T>>)
    ensures Occupied(a + b) == Occupied(a) + Occupied(b)
  {
    if |a| == 0 {
      assert a + b == b;
    } else {
      assert (a + b)[1..] == a[1..] + b;
      OccupiedAppend(a[1..], b);
    }
  }

  lemma {:induction false} OccupiedOfEmpties<T>(lane: seq<Option<T>>)
    requires forall i :: 0 <= i < |lane| ==> lane[i].None?
    ensures Occupied(lane) == []
  {
    if |lane| > 0 {
      OccupiedOfEmpties(lane[1..]);
    }
  }

  lemma {:induction false} OccupiedOfFull<T>(lane: seq<Option<T>>)
    requires forall i :: 0 <= i < |lane| ==> lane[i].Some?
    ensures Occupied(lane) == lane
  {
    if |lane| > 0 {
      OccupiedOfFull(lane[1..]);
    }
  }

  /** After compaction the occupied rows are exactly `[0, k)`, where `k` is
      the number of blocks the lane held. */
  lemma CompactedShape<T>(lane: seq<Option<T>>)
    ensures |Compacted(lane)| == |lane|
    ensures forall y :: 0 <= y < |lane| ==>
              (Compacted(lane)[y].Some? <==> y < |Occupied(lane)|)
  {
  }

  /** Compaction keeps the blocks and their bottom-to-top order: it is a
      stable compaction, not a sort, and it creates and loses nothing. */
  lemma CompactedKeepsOrder<T>(lane: seq<Option<T>>)
    ensures Occupied(Compacted(lane)) == Occupied(lane)
    ensures multiset(Compacted(lane)) == multiset(lane)
  {
    var occupied := Occupied(lane);
    var empties := Empties<T>(|lane| - |occupied|);
    assert Compacted(lane) == occupied + empties;
    OccupiedAppend(occupied, empties);
    OccupiedOfFull(occupied);
    OccupiedOfEmpties(empties);
    assert occupied + [] == occupied;
    CompactedPermutes(lane);
  }

  lemma {:induction false} CompactedPermutes<T>(lane: seq<Option<T>>)
    ensures multiset(Compacted(lane)) == multiset(lane)
  {
    if |lane| > 0 {
      CompactedPermutes(lane[1..]);
      assert lane == [lane[0]] + lane[1..];
      CompactedUnfold(lane);
    }
  }

  /** A compacted lane is contiguous from row 0. */
  lemma CompactedIsContiguous<T>(lane: seq<Option<T>>)
    ensures Contiguous(Compacted(lane))
  {
    CompactedShape(lane);
  }

  /** Compaction changes a lane exactly when the lane is not already
      contiguous from row 0; in particular it is idempotent. */
  lemma CompactedFixesExactlyContiguous<T>(lane: seq<Option<T>>)
    ensures Compacted(lane) == lane <==> Contiguous(lane)
    ensures Compacted(Compacted(lane)) == Compacted(lane)
  {
    CompactedIsContiguous(lane);
    if Contiguous(lane) {
      ContiguousIsCompacted(lane);
    }
    CompactedIsContiguous(Compacted(lane));
    ContiguousIsCompacted(Compacted(lane));
  }

  lemma {:induction false} ContiguousIsCompacted<T>(lane: seq<Option<T>>)
    requires Contiguous(lane)
    ensures Compacted(lane) == lane
  {
    if |lane| > 0 {
      if lane[0].Some? {
        assert Contiguous(lane[1..]) by {
          forall i, j | 0 <= i < j < |lane[1..]| && lane[1..][i].None?
            ensures lane[1..][j].None?
          {
            assert lane[i + 1].None?;
          }
        }
        ContiguousIsCompacted(lane[1..]);
        assert Compacted(lane) == [lane[0]] + Compacted(lane[1..]);
      } else {
        assert forall j :: 0 <= j < |lane| ==> lane[j].None?;
        OccupiedOfEmpties(lane);
      }
    }
  }

  /** One step of compaction: a block at the bottom stays there; an empty
      cell at the bottom ends up at the top. */
  lemma CompactedUnfold<T>(lane: seq<Option<T>>)
    requires |lane| > 0
    ensures lane[0].Some? ==> Compacted(lane) == [lane[0]] + Compacted(lane[1..])
    ensures lane[0].None? ==> Compacted(lane) == Compacted(lane[1..]) + [lane[0]]
  {
    var pad := |lane| - 1 - |Occupied(lane[1..])|;
    if lane[0].None? {
      assert Empties<T>(pad + 1) == Empties<T>(pad) + [None];
    }
  }

  /** Compaction changes no count: whatever cells a predicate selects, the
      lane holds as many of them before as after. */
  lemma {:induction false} CompactedKeepsCounts<T>(lane: seq<Option<T>>, f: Option<T> -> bool)
    ensures Count(Compacted(lane), f) == Count(lane, f)
  {
    if |lane| > 0 {
      CompactedKeepsCounts(lane[1..], f);
      CompactedUnfold(lane);
      if lane[0].Some? {
        CountAppend([lane[0]], Compacted(lane[1..]), f);
      } else {
        CountAppend(Compacted(lane[1..]), [lane[0]], f);
      }
    }
  }

  /** The lane part-way through the `targetY` walk, after rows `[0, y)` have
      been visited: the blocks seen so far, then the empty rows they left,
      then the cells not yet visited. */
  function PartlySettled<T>(lane: seq<Option<T>>, y: nat): seq<Option<T>>
    requires y <= |lane|
  {
    Occupied(lane[..y]) + Empties(y - |Occupied(lane[..y])|) + lane[y..]
  }

  /** One step of the walk: visiting row `y` either leaves the lane alone
      (an empty cell, or a block already on the cursor) or moves the block
      down to the cursor, and either way yields the next partly settled lane. */
  lemma DropDownStep<T>(lane: seq<Option<T>>, y: nat)
    requires y < |lane|
    ensures |Occupied(lane[..y])| <= y
    ensures PartlySettled(lane, y)[y] == lane[y]
    ensures |Occupied(lane[..y + 1])| == |Occupied(lane[..y])| + (if lane[y].Some? then 1 else 0)
    ensures lane[y].None? || y == |Occupied(lane[..y])| ==> PartlySettled(lane, y) == PartlySettled(lane, y + 1)
    ensures lane[y].Some? && y != |Occupied(lane[..y])| ==>
      PartlySettled(lane, y)[|Occupied(lane[..y])| := lane[y]][y := None] == PartlySettled(lane, y + 1)
  {
    assert |Occupied(lane[..y])| <= |lane[..y]|;
    var r := PartlySettled(lane, y);
    var front := Occupied(lane[..y]);
    var t := |front|;
    var rest := lane[y + 1..];
    assert lane[..y + 1] == lane[..y] + [lane[y]];
    OccupiedAppend(lane[..y], [lane[y]]);
    assert [lane[y]][1..] == [];
    assert lane[y..] == [lane[y]] + rest by {
      assert |lane[y..]| == 1 + |rest|;
      forall i | 0 <= i < |lane[y..]| ensures lane[y..][i] == ([lane[y]] + rest)[i] {
        if i > 0 {
          assert lane[y..][i] == lane[y + i] == rest[i - 1];
        }
      }
    }
    if lane[y].None? {
      assert Occupied(lane[..y + 1]) == front;
      assert Empties<T>(y - t) + [None] == Empties(y + 1 - t);
    } else {
      assert Occupied(lane[..y + 1]) == front + [lane[y]];
      if y != t {
        var r' := r[t := lane[y]][y := None];
        var want := front + [lane[y]] + Empties<T>(y - t) + rest;
        assert |r'| == |want|;
        forall i | 0 <= i < |r'| ensures r'[i] == want[i] {
          if i < t {
            assert r'[i] == front[i];
          } else if i == t {
          } else if i <= y {
            assert r'[i].None? && want[i].None?;
          } else {
            assert r'[i] == rest[i - y - 1];
          }
        }
      }
    }
  }

  /** Before the walk the lane is untouched; after it, the lane is settled. */
  lemma PartlySettledEnds<T>(lane: seq<Option<T>>)
    ensures PartlySettled(lane, 0) == lane
    ensures PartlySettled(lane, |lane|) == Compacted(lane)
  {
    assert lane[..0] == [] && lane[0..] == lane;
    assert lane[..|lane|] == lane && lane[|lane|..] == [];
  }
}

=== FILE: layout.dfy ===
/** The flat level layout and its index arithmetic. A level stores one entry
    per grid cell in a flat array; the cell (x, y) of a grid `sizeX` wide reads
    entry `x + y * sizeX`, and the cell (x, y, z) of a grid `sizeX` by `sizeY`
    reads entry `x + y * sizeX + z * sizeX * sizeY`. */
module Layout {

  /** A grid coordinate; `y` is the gravity axis, `z` the lane-depth axis. */
  datatype Pos = Pos(x: int, y: int, z: int)

  function Index2(x: int, y: int, sizeX: int): int
  {
    x + y * sizeX
  }

  function Index3(p: Pos, sizeX: int, sizeY: int): int
  {
    p.x + p.y * sizeX + p.z * sizeX * sizeY
  }

  predicate InBox2(x: int, y: int, sizeX: int, sizeY: int)
  {
    0 <= x < sizeX && 0 <= y < sizeY
  }

  predicate InBox3(p: Pos, sizeX: int, sizeY: int, sizeZ: int)
  {
    0 <= p.x < sizeX && 0 <= p.y < sizeY && 0 <= p.z < sizeZ
  }

  /** The cell a flat index of a two-dimensional layout belongs to. */
  function Decode2(i: int, sizeX: int): (int, int)
  {
    if sizeX <= 0 then (0, 0) else (i % sizeX, i / sizeX)
  }

  /** The cell a flat index of a three-dimensional layout belongs to. */
  function Decode3(i: int, sizeX: int, sizeY: int): Pos
  {
    if sizeX <= 0 || sizeY <= 0 then Pos(0, 0, 0) else
    var plane := i % (sizeX * sizeY);
    Pos(plane % sizeX, plane / sizeX, i / (sizeX * sizeY))
  }

  /** Multiplication by a non-negative factor is monotone. */
  lemma {:induction false} MulMonotone(m: int, d: nat, a: nat)
    ensures m * a <= (m + d) * a
  {
    if d > 0 {
      MulMonotone(m, d - 1, a);
      assert (m + d) * a == (m + d - 1) * a + a;
    }
  }

  /** Regrouping a product of three factors. */
  lemma MulRearrange(a: int, b: int, c: int)
    ensures a * (c * b) == a * b * c
  {
  }

  /** A product with a zero factor is zero. */
  lemma ZeroFactor(a: nat, b: nat, c: nat)
    ensures a == 0 || b == 0 ==> a * b == 0 && a * b * c == 0
  {
  }

  /** A product `k * a` with `k >= 1` is at least `a`, and with `k <= -1` at most `-a`. */
  lemma MulAwayFromZero(k: int, a: int)
    requires a >= 0
    ensures k >= 1 ==> k * a >= a
    ensures k <= -1 ==> k * a <= -a
  {
    if k >= 1 {
      MulMonotone(1, k - 1, a);
    } else if k <= -1 {
      MulMonotone(k, -1 - k, a);
    }
  }

  /** If `i == a + b * sizeX` with `a` a valid remainder, division recovers `a` and `b`. */
  lemma DivModUnique(i: int, a: int, b: int, sizeX: int)
    requires sizeX > 0 && 0 <= a < sizeX && i == a + b * sizeX
    ensures i % sizeX == a && i / sizeX == b
  {
    var q, r := i / sizeX, i % sizeX;
    assert i == q * sizeX + r;
    assert (q - b) * sizeX == q * sizeX - b * sizeX;
    MulAwayFromZero(q - b, sizeX);
  }

  /** Two-dimensional index: in range, and `Decode2` inverts it. */
  lemma {:induction false} Index2Inverse(x: int, y: int, sizeX: int, sizeY: int)
    requires InBox2(x, y, sizeX, sizeY)
    ensures 0 <= Index2(x, y, sizeX) < sizeX * sizeY
    ensures Decode2(Index2(x, y, sizeX), sizeX) == (x, y)
  {
    MulMonotone(y, sizeY - 1 - y, sizeX);
    MulMonotone(0, y, sizeX);
    assert (sizeY - 1) * sizeX + sizeX == sizeY * sizeX;
    DivModUnique(Index2(x, y, sizeX), x, y, sizeX);
  }

  /** Every flat index below `sizeX * sizeY` decodes to a cell of the box that reads it. */
  lemma {:induction false} Decode2Inverse(i: int, sizeX: int, sizeY: int)
    requires sizeX > 0 && 0 <= i < sizeX * sizeY
    ensures InBox2(Decode2(i, sizeX).0, Decode2(i, sizeX).1, sizeX, sizeY)
    ensures Index2(Decode2(i, sizeX).0, Decode2(i, sizeX).1, sizeX) == i
  {
    var q := i / sizeX;
    assert i == q * sizeX + i % sizeX;
    if q >= sizeY {
      MulMonotone(sizeY, q - sizeY, sizeX);
    } else if q < 0 {
      MulAwayFromZero(q, sizeX);
    }
  }

  lemma Index3Split(p: Pos, sizeX: int, sizeY: int)
    ensures Index3(p, sizeX, sizeY) == Index2(Index2(p.x, p.y, sizeX), p.z, sizeX * sizeY)
  {
    assert p.z * sizeX * sizeY == p.z * (sizeX * sizeY);
  }

  /** Three-dimensional index: in range, and `Decode3` inverts it. */
  lemma {:induction false} Index3Inverse(p: Pos, sizeX: int, sizeY: int, sizeZ: int)
    requires InBox3(p, sizeX, sizeY, sizeZ)
    ensures 0 <= Index3(p, sizeX, sizeY) < sizeX * sizeY * sizeZ
    ensures Decode3(Index3(p, sizeX, sizeY), sizeX, sizeY) == p
  {
    Index3Split(p, sizeX, sizeY);
    Index2Inverse(p.x, p.y, sizeX, sizeY);
    Index2Inverse(Index2(p.x, p.y, sizeX), p.z, sizeX * sizeY, sizeZ);
  }

  /** Every flat index below `sizeX * sizeY * sizeZ` decodes to a cell of the box that reads it. */
  lemma {:induction false} Decode3Inverse(i: int, sizeX: int, sizeY: int, sizeZ: int)
    requires sizeX > 0 && sizeY > 0 && 0 <= i < sizeX * sizeY * sizeZ
    ensures InBox3(Decode3(i, sizeX, sizeY), sizeX, sizeY, sizeZ)
    ensures Index3(Decode3(i, sizeX, sizeY), sizeX, sizeY) == i
  {
    var plane := sizeX * sizeY;
    assert plane > 0;
    Decode2Inverse(i, plane, sizeZ);
    var (pi, z) := Decode2(i, plane);
    Decode2Inverse(pi, sizeX, sizeY);
    Index3Split(Decode3(i, sizeX, sizeY), sizeX, sizeY);
  }

  /** The layout index is a bijection from the box onto `[0, sizeX * sizeY * sizeZ)`:
      every cell reads an entry in range, two different cells never read the
      same entry, and every entry in range is read by some cell. */
  lemma LayoutIndexBijective(sizeX: nat, sizeY: nat, sizeZ: nat)
    ensures forall p :: InBox3(p, sizeX, sizeY, sizeZ) ==>
              0 <= Index3(p, sizeX, sizeY) < sizeX * sizeY * sizeZ
    ensures forall p, q ::
              (InBox3(p, sizeX, sizeY, sizeZ) && InBox3(q, sizeX, sizeY, sizeZ)
               && Index3(p, sizeX, sizeY) == Index3(q, sizeX, sizeY)) ==> p == q
    ensures forall i :: 0 <= i < sizeX * sizeY * sizeZ ==>
              InBox3(Decode3(i, sizeX, sizeY), sizeX, sizeY, sizeZ)
              && Index3(Decode3(i, sizeX, sizeY), sizeX, sizeY) == i
  {
    forall p | InBox3(p, sizeX, sizeY, sizeZ)
      ensures 0 <= Index3(p, sizeX, sizeY) < sizeX * sizeY * sizeZ
      ensures Decode3(Index3(p, sizeX, sizeY), sizeX, sizeY) == p
    {
      Index3Inverse(p, sizeX, sizeY, sizeZ);
    }
    forall i | 0 <= i < sizeX * sizeY * sizeZ
      ensures InBox3(Decode3(i, sizeX, sizeY), sizeX, sizeY, sizeZ)
      ensures Index3(Decode3(i, sizeX, sizeY), sizeX, sizeY) == i
    {
      ZeroFactor(sizeX, sizeY, sizeZ);
      Decode3Inverse(i, sizeX, sizeY, sizeZ);
    }
  }

  /** The two-dimensional layout index is a bijection from the box onto `[0, sizeX * sizeY)`. */
  lemma LayoutIndex2Bijective(sizeX: nat, sizeY: nat)
    ensures forall x, y :: InBox2(x, y, sizeX, sizeY) ==> 0 <= Index2(x, y, sizeX) < sizeX * sizeY
    ensures forall x, y, x', y' ::
              (InBox2(x, y, sizeX, sizeY) && InBox2(x', y', sizeX, sizeY)
               && Index2(x, y, sizeX) == Index2(x', y', sizeX)) ==> x == x' && y == y'
    ensures forall i :: 0 <= i < sizeX * sizeY ==>
              InBox2(Decode2(i, sizeX).0, Decode2(i, sizeX).1, sizeX, sizeY)
              && Index2(Decode2(i, sizeX).0, Decode2(i, sizeX).1, sizeX) == i
  {
    forall x, y | InBox2(x, y, sizeX, sizeY)
      ensures 0 <= Index2(x, y, sizeX) < sizeX * sizeY
      ensures Decode2(Index2(x, y, sizeX), sizeX) == (x, y)
    {
      Index2Inverse(x, y, sizeX, sizeY);
    }
    forall i | 0 <= i < sizeX * sizeY
      ensures InBox2(Decode2(i, sizeX).0, Decode2(i, sizeX).1, sizeX, sizeY)
      ensures Index2(Decode2(i, sizeX).0, Decode2(i, sizeX).1, sizeX) == i
    {
      ZeroFactor(sizeX, sizeY, 1);
      Decode2Inverse(i, sizeX, sizeY);
    }
  }
}

=== FILE: legacy_grid.dfy ===
/** The earlier, two-dimensional grid manager. Blocks sit in columns indexed
    `[x][y]` with `y = 0` the bottom row. Every frame, each column whose
    bottom cell is empty is shifted down by exactly one row: unlike the
    current grid's compaction, a gap higher up is never closed. */
module LegacyGrid {
  import opened Basics
  import opened Layout
  import Lanes
  import Blocks

  /** The earlier colour enum had the eight palette colours only. */
  type PaletteColor = c: Blocks.BlockColor | c.IsPalette() witness Blocks.Red

  /** A spawned block. `Initialize` sets only the material; the block's own
      colour is whatever the prefab was saved with. */
  datatype LegacyBlock = LegacyBlock(id: nat, color: Blocks.BlockColor, material: Blocks.Material)

  type Cell = Option<LegacyBlock>

  datatype LegacyGrid = LegacyGrid(sizeX: nat, sizeY: nat, columns: seq<seq<Cell>>)

  predicate Valid(g: LegacyGrid)
  {
    && |g.columns| == g.sizeX
    && forall x :: 0 <= x < g.sizeX ==> |g.columns[x]| == g.sizeY
  }

  /** Cell `c` holds the block spawned at `(x, y)`: its identity is its
      layout index, its colour the prefab's, and its material the one for the
      layout's colour at that index. */
  predicate SpawnedAt(layout: seq<PaletteColor>, prefabColor: Blocks.BlockColor, sizeX: int,
                      x: int, y: int, c: Cell)
  {
    var i := Index2(x, y, sizeX);
    && 0 <= i < |layout|
    && c.Some?
    && c.value.id == i
    && c.value.color == prefabColor
    && Blocks.GetMaterial(layout[i]) == Some(c.value.material)
  }

  /** The block spawned at `(x, y)`: its identity is its layout index, and its
      material is the one for the layout's colour there. */
  function Spawn(layout: seq<PaletteColor>, prefabColor: Blocks.BlockColor, sizeX: nat, sizeY: nat,
                 x: int, y: int): (b: LegacyBlock)
    requires sizeX * sizeY <= |layout| && InBox2(x, y, sizeX, sizeY)
    ensures SpawnedAt(layout, prefabColor, sizeX, x, y, Some(b))
  {
    Index2Inverse(x, y, sizeX, sizeY);
    var i := Index2(x, y, sizeX);
    LegacyBlock(i, prefabColor, Blocks.GetMaterial(layout[i]).value)
  }

  /** Every cell of the box holding its spawned block. */
  function Populate(layout: seq<PaletteColor>, prefabColor: Blocks.BlockColor,
                    sizeX: nat, sizeY: nat): (g: LegacyGrid)
    requires sizeX * sizeY <= |layout|
    ensures Valid(g) && g.sizeX == sizeX && g.sizeY == sizeY
    ensures forall x, y :: 0 <= x < sizeX && 0 <= y < sizeY ==>
              SpawnedAt(layout, prefabColor, sizeX, x, y, g.columns[x][y])
  {
    LegacyGrid(sizeX, sizeY,
      seq(sizeX, x requires 0 <= x < sizeX =>
        seq(sizeY, y requires 0 <= y < sizeY =>
          Some(Spawn(layout, prefabColor, sizeX, sizeY, x, y)))))
  }

  /** Row by row, then column by column, every cell gets a block spawned from
      layout entry `x + y * sizeX`. A layout shorter than the grid faults on
      the first missing entry (`None`). */
  function InitializeGrid(layout: seq<PaletteColor>, prefabColor: Blocks.BlockColor,
                          sizeX: nat, sizeY: nat): (r: Option<LegacyGrid>)
    ensures r.Some? <==> sizeX * sizeY <= |layout|
    ensures r.Some? ==> Valid(r.value) && r.value.sizeX == sizeX && r.value.sizeY == sizeY
    ensures r.Some? ==> forall x, y :: 0 <= x < sizeX && 0 <= y < sizeY ==>
              SpawnedAt(layout, prefabColor, sizeX, x, y, r.value.columns[x][y])
  {
    if |layout| < sizeX * sizeY then None
    else
      Some(Populate(layout, prefabColor, sizeX, sizeY))
  }

  /** Each layout entry below `sizeX * sizeY` is read by exactly one cell, and
      no two cells hold the same block. */
  lemma InitializeGridReadsEachEntryOnce(layout: seq<PaletteColor>, prefabColor: Blocks.BlockColor,
                                         sizeX: nat, sizeY: nat)
    requires sizeX * sizeY <= |layout|
    ensures var g := InitializeGrid(layout, prefabColor, sizeX, sizeY).value;
      forall x, y, x', y' ::
        (0 <= x < sizeX && 0 <= y < sizeY && 0 <= x' < sizeX && 0 <= y' < sizeY
         && g.columns[x][y] == g.columns[x'][y']) ==> x == x' && y == y'
    ensures forall i :: 0 <= i < sizeX * sizeY ==>
      var (x, y) := Decode2(i, sizeX);
      InBox2(x, y, sizeX, sizeY) && InitializeGrid(layout, prefabColor, sizeX, sizeY).value.columns[x][y].value.id == i
  {
    LayoutIndex2Bijective(sizeX, sizeY);
  }

  /** What one call of the column drop does to a column whose bottom cell is
      empty: every cell moves down one row and the top row becomes empty. */
  function Shifted(column: seq<Cell>): (r: seq<Cell>)
    ensures |r| == |column|
  {
    if |column| == 0 then [] else column[1..] + [None]
  }

  /** The column drop, as the loop runs it: rows are visited bottom to top and
      each block found moves into the row below. A block in the bottom row
      would be written to row -1, which faults (`None`). */
  method ShiftDown(column: seq<Cell>) returns (r: Option<seq<Cell>>)
    ensures r.None? <==> |column| > 0 && column[0].Some?
    ensures r.Some? ==> |r.value| == |column|
    ensures r.Some? ==> forall y :: 1 <= y < |column| ==> r.value[y - 1] == column[y]
    ensures r.Some? && |column| > 0 ==> r.value[|column| - 1].None?
    ensures r.Some? ==> r.value == Shifted(column)
  {
    var a := column;
    for currentRow := 0 to |column|
      invariant |a| == |column|
      invariant currentRow == 0 ==> a == column
      invariant currentRow > 0 ==> a[..currentRow - 1] == column[1..currentRow] && a[currentRow - 1].None?
      invariant a[currentRow..] == column[currentRow..]
      invariant currentRow > 0 && |column| > 0 ==> column[0].None?
    {
      var block := a[currentRow];
      if block.Some? {
        if currentRow == 0 {
          return None;
        }
        var a' := a[currentRow - 1 := block][currentRow := None];
        assert a'[..currentRow] == a[..currentRow - 1] + [column[currentRow]];
        assert column[1..currentRow + 1] == column[1..currentRow] + [column[currentRow]];
        a := a';
      } else if currentRow > 0 {
        assert column[1..currentRow + 1] == column[1..currentRow] + [column[currentRow]];
        assert a[..currentRow] == a[..currentRow - 1] + [a[currentRow - 1]];
      }
    }
    if |column| > 0 {
      assert a == a[..|column| - 1] + [a[|column| - 1]];
    }
    return Some(a);
  }

  /** Dropping a column keeps its blocks and their order. */
  lemma ShiftedKeepsBlocks(column: seq<Cell>)
    requires |column| > 0 && column[0].None?
    ensures Lanes.Occupied(Shifted(column)) == Lanes.Occupied(column)
  {
    Lanes.OccupiedAppend(column[1..], [None]);
  }

  /** The drop moves a column down one row only: a gap above a block stays a
      gap, where the current grid's compaction would have closed it. */
  lemma ShiftedLeavesGaps(a: LegacyBlock, b: LegacyBlock)
    ensures Shifted([None, Some(a), None, Some(b)]) == [Some(a), None, Some(b), None]
    ensures !Lanes.Contiguous(Shifted([None, Some(a), None, Some(b)]))
    ensures Lanes.Compacted([None, Some(a), None, Some(b)]) == [Some(a), Some(b), None, None]
  {
    var lane: seq<Cell> := [None, Some(a), None, Some(b)];
    var shifted := Shifted(lane);
    assert shifted[1].None? && shifted[2].Some?;
    assert lane[1..][1..][1..] == [Some(b)];
    assert lane[1..][1..] == [None, Some(b)];
    assert lane[1..] == [Some(a), None, Some(b)];
    assert [Some(b)][1..] == [];
    assert Lanes.Occupied([Some(b)]) == [Some(b)];
    assert Lanes.Occupied([None, Some(b)]) == [Some(b)];
    assert Lanes.Occupied([Some(a), None, Some(b)]) == [Some(a), Some(b)];
    assert Lanes.Occupied(lane) == [Some(a), Some(b)];
    assert Lanes.Empties<LegacyBlock>(2) == [None, None];
  }

  /** The grid-level drop of column `x`: it faults when the bottom cell is
      occupied, and otherwise shifts that column and no other. */
  function DropDownColumn(g: LegacyGrid, x: int): (r: Option<LegacyGrid>)
    requires Valid(g) && 0 <= x < g.sizeX
    ensures r.None? <==> g.sizeY > 0 && g.columns[x][0].Some?
    ensures r.Some? ==> Valid(r.value) && r.value.sizeX == g.sizeX && r.value.sizeY == g.sizeY
    ensures r.Some? ==> forall y :: 1 <= y < g.sizeY ==> r.value.columns[x][y - 1] == g.columns[x][y]
    ensures r.Some? && g.sizeY > 0 ==> r.value.columns[x][g.sizeY - 1].None?
    ensures r.Some? ==> forall x' :: 0 <= x' < g.sizeX && x' != x ==> r.value.columns[x'] == g.columns[x']
  {
    if g.sizeY > 0 && g.columns[x][0].Some? then None
    else Some(g.(columns := g.columns[x := Shifted(g.columns[x])]))
  }

  /** The per-frame update, on one column: drop it when its bottom cell is empty. */
  function UpdateColumn(column: seq<Cell>): seq<Cell>
    requires |column| > 0
  {
    if column[0].None? then Shifted(column) else column
  }

  /** The per-frame update: each column whose bottom cell is empty is dropped
      by one row, the others stay. Reading the bottom cell of a grid with no
      rows faults (`None`) as soon as there is a column to read. */
  function Update(g: LegacyGrid): (r: Option<LegacyGrid>)
    requires Valid(g)
    ensures r.None? <==> g.sizeX > 0 && g.sizeY == 0
    ensures r.Some? ==> Valid(r.value) && r.value.sizeX == g.sizeX && r.value.sizeY == g.sizeY
    ensures r.Some? ==> forall x :: 0 <= x < g.sizeX && g.columns[x][0].Some? ==> r.value.columns[x] == g.columns[x]
    ensures r.Some? ==> forall x, y :: 0 <= x < g.sizeX && g.columns[x][0].None? && 1 <= y < g.sizeY ==>
              r.value.columns[x][y - 1] == g.columns[x][y]
    ensures r.Some? ==> forall x :: 0 <= x < g.sizeX && g.columns[x][0].None? ==>
              r.value.columns[x][g.sizeY - 1].None?
  {
    if g.sizeX > 0 && g.sizeY == 0 then None
    else Some(g.(columns := seq(g.sizeX, x requires 0 <= x < g.sizeX => UpdateColumn(g.columns[x]))))
  }

  /** The update loses no block and reorders none, column by column. */
  lemma UpdateKeepsBlocks(g: LegacyGrid)
    requires Valid(g) && Update(g).Some?
    ensures forall x :: 0 <= x < g.sizeX ==>
      Lanes.Occupied(Update(g).value.columns[x]) == Lanes.Occupied(g.columns[x])
  {
    forall x | 0 <= x < g.sizeX
      ensures Lanes.Occupied(Update(g).value.columns[x]) == Lanes.Occupied(g.columns[x])
    {
      if g.columns[x][0].None? {
        ShiftedKeepsBlocks(g.columns[x]);
      }
    }
  }

  /** A grid whose bottom row is full is left exactly as it is, gaps and all. */
  lemma UpdateFixesFullBottomRow(g: LegacyGrid)
    requires Valid(g) && g.sizeY > 0
    requires forall x :: 0 <= x < g.sizeX ==> g.columns[x][0].Some?
    ensures Update(g) == Some(g)
  {
    assert Update(g).value.columns == g.columns;
  }
}

=== FILE: level.dfy ===
/** Level progress: a counter of destroyed blocks against the number of grid
    cells, a win check after every step, and a one-shot game-over latch. */
module Level {
  import opened Basics

  /** What the level asks the user interface to show, in order. */
  datatype UiRequest =
    | ProgressBar(progress: int, maxProgress: int)
    | WinScreen
    | GameOverScreen

  datatype Level = Level(progress: int, maxProgress: int, gameIsOver: bool, requests: seq<UiRequest>)

  /** Something the level reacts to: a destroyed block reported through
      `MakeProgress`, or a game-over poll with the dock's two answers. */
  datatype LevelEvent =
    | BlockDestroyed
    | GameOverPoll(dockIsFull: bool, everyShooterStopped: bool)

  /** The level once the grid exists: no progress, the whole grid as the
      target, the game not over and nothing shown yet. */
  function Start(cellCount: nat): (l: Level)
    ensures l.progress == 0 && l.maxProgress == cellCount
    ensures !l.gameIsOver && l.requests == []
  {
    Level(0, cellCount, false, [])
  }

  /** Requests of `l'` issued after those of `l`. */
  function NewRequests(l: Level, l': Level): seq<UiRequest>
    requires |l.requests| <= |l'.requests|
  {
    l'.requests[|l.requests|..]
  }

  predicate IsGameOverScreen(u: UiRequest)
  {
    u == GameOverScreen
  }

  predicate IsBlockDestroyed(e: LevelEvent)
  {
    e.BlockDestroyed?
  }

  /** One destroyed block: the counter goes up by one, the progress bar is
      redrawn, and the win screen is requested exactly when the counter has
      reached the grid's size. Nothing latches, so every later call asks for
      the win screen again. */
  function MakeProgress(l: Level): (r: Level)
    ensures r.progress == l.progress + 1
    ensures r.maxProgress == l.maxProgress && r.gameIsOver == l.gameIsOver
    ensures r.requests == l.requests + [ProgressBar(r.progress, r.maxProgress)]
              + (if r.progress >= r.maxProgress then [WinScreen] else [])
  {
    var l1 := l.(progress := l.progress + 1);
    var l2 := l1.(requests := l1.requests + [ProgressBar(l1.progress, l1.maxProgress)]);
    CheckWinCondition(l2)
  }

  /** What one report adds to the log: it keeps the earlier requests, the
      progress bar comes first, the win screen is among the new requests
      exactly when the counter has reached the target, and the game-over
      screen never is. */
  lemma MakeProgressRequests(l: Level)
    ensures |l.requests| < |MakeProgress(l).requests|
    ensures MakeProgress(l).requests[..|l.requests|] == l.requests
    ensures NewRequests(l, MakeProgress(l))[0] == ProgressBar(l.progress + 1, l.maxProgress)
    ensures WinScreen in NewRequests(l, MakeProgress(l)) <==> l.progress + 1 >= l.maxProgress
    ensures GameOverScreen !in NewRequests(l, MakeProgress(l))
  {
    var r := MakeProgress(l);
    assert NewRequests(l, r) == [ProgressBar(r.progress, r.maxProgress)]
      + (if r.progress >= r.maxProgress then [WinScreen] else []);
  }

  /** The requests `n` reports issue, starting from counter `progress`: for
      each report a progress-bar redraw, then the win screen if that report
      reached the target. */
  function ReportLog(progress: int, maxProgress: int, n: nat): (log: seq<UiRequest>)
    ensures n <= |log|
    decreases n
  {
    if n == 0 then []
    else ReportLog(progress, maxProgress, n - 1) + [ProgressBar(progress + n, maxProgress)]
         + (if progress + n >= maxProgress then [WinScreen] else [])
  }

  /** The win screen is in the log of `n` reports exactly when some report
      reached the target, that is when the last one did; the game-over
      screen never is. */
  lemma {:induction false} ReportLogRequests(progress: int, maxProgress: int, n: nat)
    ensures WinScreen in ReportLog(progress, maxProgress, n) <==> n > 0 && progress + n >= maxProgress
    ensures GameOverScreen !in ReportLog(progress, maxProgress, n)
    decreases n
  {
    if n > 0 {
      ReportLogRequests(progress, maxProgress, n - 1);
      var earlier := ReportLog(progress, maxProgress, n - 1);
      var latest := [ProgressBar(progress + n, maxProgress)]
                    + (if progress + n >= maxProgress then [WinScreen] else []);
      assert ReportLog(progress, maxProgress, n) == earlier + latest;
      assert WinScreen in latest <==> progress + n >= maxProgress;
    }
  }

  /** The level after `n` destroyed blocks reported in a row: the counter
      raised by `n` and the log of those reports appended. */
  function ProgressTimes(l: Level, n: nat): Level
  {
    l.(progress := l.progress + n, requests := l.requests + ReportLog(l.progress, l.maxProgress, n))
  }

  /** `ProgressTimes` is `MakeProgress` repeated: no reports leave the level
      as it is, and one more report is one more `MakeProgress`. */
  lemma ProgressTimesStep(l: Level, n: nat)
    ensures ProgressTimes(l, 0) == l
    ensures MakeProgress(ProgressTimes(l, n)) == ProgressTimes(l, n + 1)
  {
    assert l.requests + [] == l.requests;
    var p := ProgressTimes(l, n);
    var earlier := ReportLog(l.progress, l.maxProgress, n);
    var latest := [ProgressBar(l.progress + n + 1, l.maxProgress)]
                  + (if l.progress + n + 1 >= l.maxProgress then [WinScreen] else []);
    assert ReportLog(l.progress, l.maxProgress, n + 1) == earlier + latest;
    assert (l.requests + earlier) + latest == l.requests + (earlier + latest);
  }

  /** Among the requests of `n` reports, at least one per report, the win
      screen appears exactly when the counter has reached the target, and
      the game-over screen never appears. */
  lemma ProgressTimesRequests(l: Level, n: nat)
    ensures |l.requests| + n <= |ProgressTimes(l, n).requests|
    ensures WinScreen in NewRequests(l, ProgressTimes(l, n))
            <==> n > 0 && l.progress + n >= l.maxProgress
    ensures GameOverScreen !in NewRequests(l, ProgressTimes(l, n))
  {
    ReportLogRequests(l.progress, l.maxProgress, n);
    assert NewRequests(l, ProgressTimes(l, n)) == ReportLog(l.progress, l.maxProgress, n);
  }

  /** The win check: the win screen is requested, once more, whenever the
      counter has reached the target; nothing else changes. */
  function CheckWinCondition(l: Level): (r: Level)
    ensures r.progress == l.progress && r.maxProgress == l.maxProgress && r.gameIsOver == l.gameIsOver
    ensures |l.requests| <= |r.requests| && r.requests[..|l.requests|] == l.requests
    ensures NewRequests(l, r) == (if l.progress >= l.maxProgress then [WinScreen] else [])
  {
    if l.progress >= l.maxProgress then l.(requests := l.requests + [WinScreen]) else l
  }

  /** The game-over poll: once the game is over it does nothing; otherwise the
      game ends, and the game-over screen is requested, exactly when the dock
      is full and every shooter on it has stopped firing. */
  function CheckGameOverCondition(l: Level, dockIsFull: bool, everyShooterStopped: bool): (r: Level)
    ensures l.gameIsOver ==> r == l
    ensures r.gameIsOver <==> l.gameIsOver || (dockIsFull && everyShooterStopped)
    ensures r.progress == l.progress && r.maxProgress == l.maxProgress
    ensures |l.requests| <= |r.requests| && r.requests[..|l.requests|] == l.requests
    ensures NewRequests(l, r) == (if r.gameIsOver && !l.gameIsOver then [GameOverScreen] else [])
  {
    if l.gameIsOver then l
    else if dockIsFull && everyShooterStopped then
      l.(gameIsOver := true, requests := l.requests + [GameOverScreen])
    else l
  }

  function Step(l: Level, e: LevelEvent): Level
  {
    match e
    case BlockDestroyed => MakeProgress(l)
    case GameOverPoll(full, stopped) => CheckGameOverCondition(l, full, stopped)
  }

  function Run(l: Level, events: seq<LevelEvent>): Level
    decreases |events|
  {
    if |events| == 0 then l else Run(Step(l, events[0]), events[1..])
  }

  /** `gameIsOver` is monotone: once set, no sequence of events clears it. */
  lemma {:induction false} GameOverIsMonotone(l: Level, events: seq<LevelEvent>)
    requires l.gameIsOver
    ensures Run(l, events).gameIsOver
    decreases |events|
  {
    if |events| > 0 {
      GameOverIsMonotone(Step(l, events[0]), events[1..]);
    }
  }

  /** Starting from a level that has shown the game-over screen exactly when
      it is over, any sequence of events keeps it that way; in particular a
      level run from `Start` requests the game-over screen at most once. */
  lemma {:induction false} GameOverShownAtMostOnce(l: Level, events: seq<LevelEvent>)
    requires Count(l.requests, IsGameOverScreen) == (if l.gameIsOver then 1 else 0)
    ensures Count(Run(l, events).requests, IsGameOverScreen) == (if Run(l, events).gameIsOver then 1 else 0)
    ensures Count(Run(l, events).requests, IsGameOverScreen) <= 1
    decreases |events|
  {
    if |events| > 0 {
      var l' := Step(l, events[0]);
      assert l'.requests == l.requests + NewRequests(l, l');
      CountAppend(l.requests, NewRequests(l, l'), IsGameOverScreen);
      if events[0].BlockDestroyed? {
        MakeProgressRequests(l);
        CountZero(NewRequests(l, l'), IsGameOverScreen);
      }
      GameOverShownAtMostOnce(l', events[1..]);
    }
  }

  /** A run from the start of a level requests the game-over screen at most once. */
  lemma GameOverAtMostOnceFromStart(cellCount: nat, events: seq<LevelEvent>)
    ensures Count(Run(Start(cellCount), events).requests, IsGameOverScreen) <= 1
  {
    GameOverShownAtMostOnce(Start(cellCount), events);
  }

  /** Every destroyed block advances the counter by one and polls leave it
      alone, so after a run the counter has grown by the number of blocks
      reported. */
  lemma {:induction false} ProgressCountsDestroyedBlocks(l: Level, events: seq<LevelEvent>)
    ensures Run(l, events).progress == l.progress + Count(events, IsBlockDestroyed)
    ensures Run(l, events).maxProgress == l.maxProgress
    decreases |events|
  {
    if |events| > 0 {
      ProgressCountsDestroyedBlocks(Step(l, events[0]), events[1..]);
    }
  }

  /** No latch on winning: once the counter has reached the grid's size,
      each further block asks for the win screen again. */
  lemma WinRequestedAgain(l: Level)
    requires l.progress >= l.maxProgress
    ensures WinScreen in NewRequests(l, MakeProgress(l))
    ensures WinScreen in NewRequests(MakeProgress(l), MakeProgress(MakeProgress(l)))
  {
    MakeProgressRequests(l);
    MakeProgressRequests(MakeProgress(l));
  }
}

=== FILE: shooter.dfy ===
/** A shooter: a coloured unit whose ammunition is the number of grid blocks
    of its colour, and which, once docked, fires at the blocks of its colour
    along the bottom row of the grid. */
module Shooter {
  import opened Basics
  import Blocks
  import Grid
  import Layout
  import Level

  datatype Shooter = Shooter(color: Blocks.BlockColor, ammo: int, onDock: bool)

  /** A shooter as `Awake` leaves it: not docked and without ammunition. */
  function Awake(color: Blocks.BlockColor): (s: Shooter)
    ensures s.color == color && !s.onDock && s.ammo == 0
  {
    Shooter(color, 0, false)
  }

  /** `Start` counts every grid cell whose block has the shooter's colour into
      its ammunition. The count reads the colour of every cell without a null
      check, so a grid with an empty cell faults (`None`). */
  function Start(s: Shooter, g: Grid.Grid): (r: Option<Shooter>)
    requires Grid.Valid(g)
    ensures r.None? <==> exists p :: Grid.InBox(g, p) && Grid.At(g, p).None?
    ensures r.Some? ==> r.value.ammo == s.ammo + Grid.ColorCount(g, s.color)
    ensures r.Some? ==> r.value.color == s.color && r.value.onDock == s.onDock
  {
    match Grid.Find(g, None)
    case Some(p) => None
    case None => Some(s.(ammo := s.ammo + Grid.ColorCount(g, s.color)))
  }

  /** On a freshly decoded grid `Start` cannot fault, and a newly awakened
      shooter ends up with one round per block of its colour, at most one per
      cell. */
  lemma StartOnFreshGrid(color: Blocks.BlockColor, layout: seq<Blocks.BlockColor>,
                         sizeX: nat, sizeY: nat, sizeZ: nat, prefabs: Grid.Prefabs)
    requires sizeX * sizeY * sizeZ <= |layout|
    ensures var g := Grid.InitializeGrid(layout, sizeX, sizeY, sizeZ, prefabs).value;
      && Start(Awake(color), g).Some?
      && Start(Awake(color), g).value.ammo == Grid.ColorCount(g, color)
      && 0 <= Start(Awake(color), g).value.ammo <= sizeX * sizeY * sizeZ
  {
    var g := Grid.InitializeGrid(layout, sizeX, sizeY, sizeZ, prefabs).value;
    Grid.InitializedGridIsFull(layout, sizeX, sizeY, sizeZ, prefabs);
    Grid.CountCellsAtMost(g, Grid.HasColor(color));
  }

  /** Extra ammunition, as a merge grants it; nothing else changes. */
  function Upgrade(s: Shooter, extraAmmoCount: int): (r: Shooter)
    ensures r.ammo == s.ammo + extraAmmoCount
    ensures r.color == s.color && r.onDock == s.onDock
  {
    s.(ammo := s.ammo + extraAmmoCount)
  }

  /** Upgrades add up, and an upgrade by zero changes nothing. */
  lemma UpgradesCompose(s: Shooter, a: int, b: int)
    ensures Upgrade(Upgrade(s, a), b) == Upgrade(s, a + b)
    ensures Upgrade(s, 0) == s
  {
  }

  /** Fire at a target. A null target is ignored; any other target costs one
      round and reports one destroyed block through `MakeProgress`. There is no check
      that ammunition is left, so it can become negative. */
  function ShootAt(s: Shooter, level: Level.Level, target: Grid.Cell): (r: (Shooter, Level.Level))
    ensures target.None? ==> r == (s, level)
    ensures target.Some? ==> r.0.ammo == s.ammo - 1 && r.1.progress == level.progress + 1
    ensures target.Some? ==> r.1 == Level.MakeProgress(level)
    ensures r.0.color == s.color && r.0.onDock == s.onDock
    ensures r.1.maxProgress == level.maxProgress && r.1.gameIsOver == level.gameIsOver
  {
    if target.None? then (s, level)
    else (s.(ammo := s.ammo - 1), Level.MakeProgress(level))
  }

  /** The index of the first empty cell of `row`, or `|row|` if there is none. */
  function FirstEmpty(row: seq<Grid.Cell>): (k: nat)
    ensures k <= |row|
    ensures forall i :: 0 <= i < k ==> row[i].Some?
    ensures k < |row| ==> row[k].None?
  {
    if |row| == 0 then 0
    else if row[0].None? then 0
    else 1 + FirstEmpty(row[1..])
  }

  /** `row[i]` holds a block of colour `color`. */
  predicate IsTarget(row: seq<Grid.Cell>, i: int, color: Blocks.BlockColor)
    requires 0 <= i < |row|
  {
    row[i].Some? && row[i].value.color == color
  }

  /** The columns one pass over `row` fires at, in increasing order: the
      blocks of colour `color` before the first empty cell, where reading a
      colour faults and ends the pass. */
  method Scan(row: seq<Grid.Cell>, color: Blocks.BlockColor) returns (fired: seq<nat>, faulted: bool)
    ensures faulted <==> FirstEmpty(row) < |row|
    ensures forall j :: 0 <= j < |fired| ==> fired[j] < FirstEmpty(row) && IsTarget(row, fired[j], color)
    ensures forall j, j' :: 0 <= j < j' < |fired| ==> fired[j] < fired[j']
    ensures forall i :: 0 <= i < FirstEmpty(row) && IsTarget(row, i, color) ==> i in fired
  {
    fired, faulted := [], false;
    var i := 0;
    while i < |row|
      invariant 0 <= i <= FirstEmpty(row)
      invariant !faulted
      invariant forall j :: 0 <= j < |fired| ==> fired[j] < i && IsTarget(row, fired[j], color)
      invariant forall j, j' :: 0 <= j < j' < |fired| ==> fired[j] < fired[j']
      invariant forall i' :: 0 <= i' < i && IsTarget(row, i', color) ==> i' in fired
    {
      if row[i].None? {
        faulted := true;
        break;
      }
      if row[i].value.color == color {
        fired := fired + [i];
      }
      i := i + 1;
    }
  }

  /** `ShootAt` each listed column of `row` in turn: every shot costs one
      round and is reported to the level through `MakeProgress`. */
  method FireAll(s: Shooter, level: Level.Level, row: seq<Grid.Cell>, targets: seq<nat>)
    returns (s': Shooter, level': Level.Level)
    requires forall j :: 0 <= j < |targets| ==> targets[j] < |row| && row[targets[j]].Some?
    ensures s'.ammo == s.ammo - |targets| && s'.color == s.color && s'.onDock == s.onDock
    ensures level' == Level.ProgressTimes(level, |targets|)
  {
    s', level' := s, level;
    Level.ProgressTimesStep(level, 0);
    for j := 0 to |targets|
      invariant s'.ammo == s.ammo - j && s'.color == s.color && s'.onDock == s.onDock
      invariant level' == Level.ProgressTimes(level, j)
    {
      Level.ProgressTimesStep(level, j);
      var shot := ShootAt(s', level', row[targets[j]]);
      s', level' := shot.0, shot.1;
    }
  }

  /** One pass of the search over the bottom row: columns are visited in
      increasing order, and the shooter fires at each block of its colour.
      Reading the colour of an empty cell faults, which ends the pass but
      keeps the shots already fired. A shot never changes the row, so the
      pass is the scan followed by the shots in the same order. The result
      lists the columns fired at; ammunition drops by one per shot, and the
      level receives one `MakeProgress` per shot. */
  method SearchPass(s: Shooter, level: Level.Level, row: seq<Grid.Cell>)
    returns (s': Shooter, level': Level.Level, fired: seq<nat>, faulted: bool)
    ensures faulted <==> FirstEmpty(row) < |row|
    ensures forall j :: 0 <= j < |fired| ==> fired[j] < FirstEmpty(row) && IsTarget(row, fired[j], s.color)
    ensures forall j, j' :: 0 <= j < j' < |fired| ==> fired[j] < fired[j']
    ensures forall i :: 0 <= i < FirstEmpty(row) && IsTarget(row, i, s.color) ==> i in fired
    ensures s'.ammo == s.ammo - |fired| && s'.color == s.color && s'.onDock == s.onDock
    ensures level' == Level.ProgressTimes(level, |fired|)
    ensures level'.progress == level.progress + |fired| && level'.maxProgress == level.maxProgress
  {
    fired, faulted := Scan(row, s.color);
    s', level' := FireAll(s, level, row, fired);
  }

  /** The bottom row (y = 0) of lane depth `z`, the cells a pass reads. */
  function BottomRow(g: Grid.Grid, z: int): (row: seq<Grid.Cell>)
    requires Grid.Valid(g) && g.sizeY > 0 && 0 <= z < g.sizeZ
    ensures |row| == g.sizeX
    ensures forall i :: 0 <= i < g.sizeX ==> row[i] == Grid.At(g, Layout.Pos(i, 0, z))
  {
    seq(g.sizeX, i requires 0 <= i < g.sizeX => Grid.At(g, Layout.Pos(i, 0, z)))
  }

  /** A strictly increasing sequence of naturals below `n` has at most `n` elements. */
  lemma {:induction false} IncreasingBelowIsShort(s: seq<nat>, n: nat)
    requires forall j :: 0 <= j < |s| ==> s[j] < n
    requires forall j, j' :: 0 <= j < j' < |s| ==> s[j] < s[j']
    ensures |s| <= n
  {
    if |s| > 0 {
      IncreasingBelowIsShort(s[..|s| - 1], s[|s| - 1]);
    }
  }

  /** A pass over the bottom row of depth `z` of a freshly built grid: the row
      is full, so the pass never faults; it fires at exactly the columns whose
      block has the shooter's colour, hence at most once per column. */
  method PassOverFreshGrid(s: Shooter, level: Level.Level, layout: seq<Blocks.BlockColor>,
                           sizeX: nat, sizeY: nat, sizeZ: nat, prefabs: Grid.Prefabs, z: nat)
    returns (s': Shooter, level': Level.Level, fired: seq<nat>, faulted: bool)
    requires sizeX * sizeY * sizeZ <= |layout| && sizeY > 0 && z < sizeZ
    ensures !faulted
    ensures var g := Grid.InitializeGrid(layout, sizeX, sizeY, sizeZ, prefabs).value;
      forall i :: 0 <= i < sizeX ==>
        (i in fired <==> Grid.At(g, Layout.Pos(i, 0, z)).Some? && Grid.At(g, Layout.Pos(i, 0, z)).value.color == s.color)
    ensures forall j, j' :: 0 <= j < j' < |fired| ==> fired[j] < fired[j']
    ensures |fired| <= sizeX
    ensures s'.ammo == s.ammo - |fired| && level'.progress == level.progress + |fired|
  {
    var g := Grid.InitializeGrid(layout, sizeX, sizeY, sizeZ, prefabs).value;
    Grid.InitializedGridIsFull(layout, sizeX, sizeY, sizeZ, prefabs);
    var row := BottomRow(g, z);
    assert forall i :: 0 <= i < |row| ==> row[i].Some? by {
      forall i | 0 <= i < |row|
        ensures row[i].Some?
      {
        assert Grid.InBox(g, Layout.Pos(i, 0, z));
      }
    }
    assert FirstEmpty(row) == |row|;
    s', level', fired, faulted := SearchPass(s, level, row);
    IncreasingBelowIsShort(fired, sizeX);
  }
}

=== FILE: tutorial.dfy ===
/** The tutorial overlay: shown at start when the level asks for it, hidden
    once the player has destroyed enough blocks. */
module Tutorial {

  datatype Tutorial = Tutorial(
    tutorialRequired: bool,
    numberOfBlocksNeeded: int,
    blockCounter: int,
    screenVisible: bool)

  /** The overlay after `Awake`: visible exactly when the level requires the
      tutorial, whatever the scene had it set to; the counter starts at zero. */
  function Awake(tutorialRequired: bool, numberOfBlocksNeeded: int): (t: Tutorial)
    ensures t.screenVisible <==> tutorialRequired
    ensures t.blockCounter == 0
    ensures t.tutorialRequired == tutorialRequired && t.numberOfBlocksNeeded == numberOfBlocksNeeded
  {
    Tutorial(tutorialRequired, numberOfBlocksNeeded, 0, tutorialRequired)
  }

  /** One more block: the counter goes up by one; at or past the threshold
      the overlay is hidden, below it the overlay keeps its visibility. The
      call never shows the overlay. */
  function ProgressTutorial(t: Tutorial): (r: Tutorial)
    ensures r.blockCounter == t.blockCounter + 1
    ensures r.blockCounter >= t.numberOfBlocksNeeded ==> !r.screenVisible
    ensures r.blockCounter < t.numberOfBlocksNeeded ==> r.screenVisible == t.screenVisible
    ensures r.screenVisible ==> t.screenVisible
    ensures r.tutorialRequired == t.tutorialRequired && r.numberOfBlocksNeeded == t.numberOfBlocksNeeded
  {
    var counted := t.(blockCounter := t.blockCounter + 1);
    if counted.blockCounter >= counted.numberOfBlocksNeeded then counted.(screenVisible := false)
    else counted
  }

  function ProgressTimes(t: Tutorial, n: nat): Tutorial
    decreases n
  {
    if n == 0 then t else ProgressTimes(ProgressTutorial(t), n - 1)
  }

  /** After `n` blocks the counter has grown by `n`, and the overlay is still
      visible exactly when it was visible before and the counter has stayed
      below the threshold; once hidden it stays hidden. */
  lemma {:induction false} ProgressTimesHides(t: Tutorial, n: nat)
    ensures ProgressTimes(t, n).blockCounter == t.blockCounter + n
    ensures n > 0 ==>
      (ProgressTimes(t, n).screenVisible
       <==> t.screenVisible && t.blockCounter + n < t.numberOfBlocksNeeded)
    ensures !t.screenVisible ==> !ProgressTimes(t, n).screenVisible
    decreases n
  {
    if n > 0 {
      ProgressTimesHides(ProgressTutorial(t), n - 1);
    }
  }
}
